=== FILE: README.md ===
# Dapplo.Utils core, modelled in Dafny

This project models three parts of Dapplo.Utils:

- **AssemblyResolver** is the process-wide assembly resolver. It keeps a
  cache of loaded assemblies, which is a dictionary keyed by assembly name
  and compared ignoring case. It records which AppDomains have the resolve
  handler attached to their `AssemblyResolve` event. It resolves a name from
  the cache, from an embedded `<name>.dll` resource of a cached assembly, or
  from a `<name>.dll` file found in the resolve directories. A flag decides
  which of the last two comes first.
- **FileTools** covers two operations. `FilenameToRegex` turns a wildcard
  file name and a list of extensions into a regular expression text.
  `RemoveExtensions` strips extensions from a path.
- **StringExtensions** holds `RemoveNonAlphaDigitsToLower`,
  `RemoveStartEndQuotes`, `SplitCsv` and `SplitDictionary`. `SplitCsv` is
  modelled in its build without `TextFieldParser`.

Files:

- `Wrappers.dfy` holds `Option`, `Result` and the exceptions.
- `Text.dfy` holds the .NET string primitives the code relies on, with
  their lemmas. These are `String.Replace`, `Split`, `Join`, `Trim`,
  `StartsWith`/`EndsWith` and case mapping.
- `FileTools.dfy`, `StringExtensions.dfy` and `AssemblyResolver.dfy` hold
  the three parts above.

The resolver is a class, `AssemblyResolving.Resolver`. Its fields are the
static state of `AssemblyResolver`:

- the cache, as a map from the case-insensitive form of a name to the
  assembly;
- the set of registered AppDomain FriendlyNames;
- the resolve directories;
- the flag `resolveEmbeddedBeforeFiles`;
- the multiset of handler subscriptions, one per attached handler, per
  AppDomain object.

Its class invariant `Valid()` has two parts. Every cache entry is filed under
its own assembly's name, so no two cached names are equal ignoring case. And
every registered FriendlyName belongs to an AppDomain that has the handler
attached.

Registrations are kept by FriendlyName (AssemblyResolver.cs:106-108,
:132-134), while the handler is attached to and detached from the AppDomain
object (:109, :135). Two AppDomains can share a FriendlyName. The model
distinguishes them by identity and shows what follows:

- of two such AppDomains, only the first registered gets the handler
  (`SharedFriendlyNameMissesHandler`);
- unregistering the second removes the name and leaves the first one's
  handler attached, so registering the first again attaches its handler a
  second time (`OtherDomainUnregistersName`).

A file is loaded only once when the loaded assembly reports the path as its
`Location` and its name is not yet cached (`LoadedFileIsReused`). When the
name is already cached, `Register` keeps the earlier assembly, the freshly
loaded one is returned anyway, and the next call for the same path loads
the file again (`TakenNameLoadsAgain`).

Calls into the runtime are the fields of a `Platform` value that each method
receives. These are `Assembly.LoadFile`, `Assembly.Load`, the resource
search, resource streams, `FileLocations.Scan` and `File.Exists`. A thrown
exception is an `Err`.

The cache's values are enumerated in no specified order. So the lookup by
`Location` in `LoadAssemblyFromFile` is a nondeterministic choice among the
matching cached assemblies. The resolver's contracts are therefore stated as
outcome predicates (`FromFileOutcome`, `FromFileSystemOutcome`,
`SourceOutcome`), not as functions.

`FilenameToRegex` and `RemoveExtensions` are methods with the source's loops.
Each is proved against a specification function: `FilenamePattern` and
`StripInOrder` over `OrderByLength`. The string extensions are pure
functions.

## Model

| member | source | states |
|---|---|---|
| Text.ToLowerInvariant | src/Dapplo.Utils/Extensions/StringExtensions.cs:62 | `ToLowerInvariant()`, ASCII only: the length is kept, no 'A'..'Z' remains, every other character is kept, and each character keeps its upper-case form |
| Text.CaseKey | Dapplo.Utils/Resolving/AssemblyResolver.cs:49 | the form `StringComparer.OrdinalIgnoreCase` compares, ASCII only: the string upper-cased, of the same length, with no 'a'..'z' left and every other character kept |
| Text.EqualsIgnoreCase | src/Dapplo.Utils/Extensions/StringExtensions.cs:261 | `OrdinalIgnoreCase` equality, ASCII only: equal strings are equal ignoring case, and strings equal ignoring case have the same length |
| Text.StartsWith | Dapplo.Utils.Shared/FileTools.cs:72 | `StartsWith`, modelled as an ordinal comparison: the string begins with the prefix |
| Text.EndsWith | Dapplo.Utils.Shared/FileTools.cs:111 | `EndsWith`, modelled as an ordinal comparison: the string ends with the suffix |
| Text.ReplaceChar | Dapplo.Utils.Shared/FileTools.cs:70 | `String.Replace(char, char)`: the length is kept, every occurrence of the old character becomes the new one, and every other character is kept |
| Text.IsWhiteSpace | src/Dapplo.Utils/Extensions/StringExtensions.cs:245 | `char.IsWhiteSpace`, which `Trim()` uses: the Unicode space, line and paragraph separators, U+0009 to U+000D, U+0085 and U+00A0 |
| Text.Replace | Dapplo.Utils.Shared/FileTools.cs:113 | `String.Replace(string, string)`: scanning from the left, each occurrence that does not overlap an earlier one is replaced, and the replacement is not scanned again; the empty pattern, which .NET refuses, is excluded by its requires |
| Text.Split | src/Dapplo.Utils/Extensions/StringExtensions.cs:245 | `String.Split(char)` gives one piece more than there are delimiters, empty pieces included, and no piece contains the delimiter |
| Text.Trim | src/Dapplo.Utils/Extensions/StringExtensions.cs:245 | `String.Trim()` returns the part of the string after its leading white space, everything after it is white space, and it neither starts nor ends with white space |
| Text.ReplaceByNothingShrinks | Dapplo.Utils.Shared/FileTools.cs:113 | `String.Replace(old, "")` never makes a string longer |
| Text.ReplaceOneCharByNothingRemovesIt | Dapplo.Utils.Shared/FileTools.cs:113 | replacing a one-character string by nothing leaves no occurrence of that character |
| Text.SplitJoin | src/Dapplo.Utils/Extensions/StringExtensions.cs:245 | splitting on a delimiter gives back the pieces that were joined with it, when none of them contains the delimiter |
| FileTools.FilenameToRegex | Dapplo.Utils.Shared/FileTools.cs:54-90 | a null file name throws ArgumentNullException("filename") and a null extension list throws ArgumentNullException("extensions"); otherwise the result is the Regex of `FilenamePattern` with the requested ignoreCase option, or the ArgumentOutOfRangeException the truncation throws |
| FileTools.AppendAlternatives | Dapplo.Utils.Shared/FileTools.cs:77-82 | the loop appends, for each cleaned extension in order, an escaped dot, the extension with its dots escaped, and a '\|' |
| FileTools.FilenamePattern | Dapplo.Utils.Shared/FileTools.cs:69-88 | the pattern fails exactly when prefix, file name and extensions are all empty; every pattern ends in "$"; with extensions, it starts with the prefix followed by the translated file name |
| FileTools.BuiltTextMeetsPattern | Dapplo.Utils.Shared/FileTools.cs:83-88 | the text the builder holds after the loop is empty exactly when the pattern fails; otherwise dropping its last character, closing the group when there are several extensions and adding "$" gives the pattern |
| FileTools.BarredAlternativesJoin | Dapplo.Utils.Shared/FileTools.cs:77-83 | appending each alternative followed by '\|' is the '\|'-join of the alternatives plus one final '\|', which the truncation at line 83 removes |
| FileTools.ReplacementsTranslateWildcards | Dapplo.Utils.Shared/FileTools.cs:65-70 | the three replacements, applied in the source's order, translate the file name character by character: a dot becomes an escaped dot, '?' any one character, '*' a run without a path separator; the dot a '?' turns into is not escaped again |
| FileTools.TranslateOrdinary | Dapplo.Utils.Shared/FileTools.cs:70 | a file name without '.', '?' or '*' stands for itself |
| FileTools.TranslateWildcardsOverConcat | Dapplo.Utils.Shared/FileTools.cs:70 | the translation of two concatenated names is the concatenation of their translations |
| FileTools.CleanExtension | Dapplo.Utils.Shared/FileTools.cs:72 | the lambda `e.StartsWith(".") ? e.TrimStart('.') : e` |
| FileTools.CleanExtensionDropsLeadingDots | Dapplo.Utils.Shared/FileTools.cs:72 | a cleaned extension does not start with a dot, is a suffix of the extension, and everything dropped was a dot |
| FileTools.TrimLeadingDots | Dapplo.Utils.Shared/FileTools.cs:72 | `TrimStart('.')` returns a suffix of the extension that does not start with a dot, and everything it dropped was a dot |
| FileTools.LeadingDotsIgnored | Dapplo.Utils.Shared/FileTools.cs:72 | an extension given with a leading dot is cleaned to the same text as one given without it |
| FileTools.FilenamePatternExample | Dapplo.Utils.Shared/FileTools.cs:43-45 | "Dapplo.*" with the extensions "dll" and "dll.gz" gives the prefix, `Dapplo\.[^\\]*`, then `(\.dll\|\.dll\.gz)$` |
| FileTools.NoExtensionLosesLastCharacter | Dapplo.Utils.Shared/FileTools.cs:83 | as written, with no extension, the pattern of a file name ending in an ordinary character is the pattern of the name without that character |
| FileTools.NoExtensionExample | Dapplo.Utils.Shared/FileTools.cs:83 | as written, "Foo" with no extension gives the default prefix followed by "Fo$" |
| FileTools.IntendedPattern | Dapplo.Utils.Shared/FileTools.cs:39-53 | the intended pattern always starts with the prefix and the translated file name, and always ends in "$" |
| FileTools.IntendedPatternAgrees | Dapplo.Utils.Shared/FileTools.cs:69-88 | the intended pattern equals what the code builds whenever there is an extension; with none, it is the prefix, the translated name and "$" |
| FileTools.OrderByLength | Dapplo.Utils.Shared/FileTools.cs:105-107 | `orderby extension.Length` returns a permutation of the extensions, sorted by length |
| FileTools.InsertByLength | Dapplo.Utils.Shared/FileTools.cs:105-107 | inserting one extension into the ordered list adds exactly that extension |
| FileTools.InsertByLengthSorted | Dapplo.Utils.Shared/FileTools.cs:105-107 | inserting into a list sorted by length keeps it sorted |
| FileTools.OrderByLengthIsStable | Dapplo.Utils.Shared/FileTools.cs:105-107 | the ordering is stable: the extensions of each length keep the caller's order |
| FileTools.RemoveExtensions | Dapplo.Utils.Shared/FileTools.cs:98-117 | a null extension list throws ArgumentNullException("extensions"); otherwise the result is the path after one round per extension, in length order; it is never longer than the path; and it is the path itself when no extension ends it |
| FileTools.StripExtension | Dapplo.Utils.Shared/FileTools.cs:111-114 | one round of the loop never makes the path longer, and changes it only when the path ends with the extension |
| FileTools.StripInOrder | Dapplo.Utils.Shared/FileTools.cs:109-116 | the rounds of the loop, in the given order, each testing the path as the earlier rounds left it |
| FileTools.StripInOrderShrinks | Dapplo.Utils.Shared/FileTools.cs:109-116 | the rounds never make the path longer |
| FileTools.StripInOrderWithoutSuffix | Dapplo.Utils.Shared/FileTools.cs:111 | a path that ends with none of the extensions comes back unchanged |
| FileTools.EmptyExtensionRemovesEveryDot | Dapplo.Utils.Shared/FileTools.cs:111-113 | the empty extension ends every path, and its round removes every dot |
| FileTools.InnerOccurrencesRemoved | Dapplo.Utils.Shared/FileTools.cs:113 | a round removes every ".extension" in the path, not only the one at its end |
| FileTools.TrailingExtensionRemoved | Dapplo.Utils.Shared/FileTools.cs:111-113 | "name.ext" loses ".ext" |
| FileTools.SecondOfTwoRemoved | Dapplo.Utils.Shared/FileTools.cs:111-113 | of two extensions of one length, a round removes only the one that ends the path |
| FileTools.EqualLengthOrderMatters | Dapplo.Utils.Shared/FileTools.cs:105-115 | for extensions of equal length, the caller's order decides the result: "a.x.y" with [x, y] loses only ".y", with [y, x] it loses both |
| StringExtensions.CleanupReplace | src/Dapplo.Utils/Extensions/StringExtensions.cs:49 | replacing each match of `[^a-z0-9]+` by nothing leaves only characters in [a-z0-9], and never a longer string |
| StringExtensions.CleanupReplaceKeepsExactlyTheClass | src/Dapplo.Utils/Extensions/StringExtensions.cs:49 | deleting maximal runs, as the regex does, equals deleting each character outside [a-z0-9] one by one |
| StringExtensions.RemoveNonAlphaDigitsToLower | src/Dapplo.Utils/Extensions/StringExtensions.cs:60-63 | the result holds only lower-case letters and digits, and is no longer than the input |
| StringExtensions.RemoveNonAlphaDigitsToLowerKeeps | src/Dapplo.Utils/Extensions/StringExtensions.cs:60-63 | the result keeps, in order, exactly the characters of the lower-cased input that are in [a-z0-9] |
| StringExtensions.RemoveNonAlphaDigitsToLowerIdempotent | src/Dapplo.Utils/Extensions/StringExtensions.cs:60-63 | applying it twice gives the same as applying it once |
| StringExtensions.RemoveNonAlphaDigitsToLowerExample | src/Dapplo.Utils/Extensions/StringExtensions.cs:60-63 | "__AbC_123!" becomes "abc123" (the input is borrowed from the `NonStrictEquals` test at StringExtensionsTests.cs:80) |
| StringExtensions.RemoveStartEndQuotes | src/Dapplo.Utils/Extensions/StringExtensions.cs:200-211 | null stays null; a quoted string loses the quote at each end; any other string is returned unchanged; a lone double quote throws ArgumentOutOfRangeException("length") |
| StringExtensions.QuotesRoundTrip | src/Dapplo.Utils/Extensions/StringExtensions.cs:206-208 | quoting a string and then removing the quotes gives the string back |
| StringExtensions.RemoveStartEndQuotesExample | src/Dapplo.Utils.Tests/StringExtensionsTests.cs:105-113 | "\"blub\"" becomes "blub", and a second call leaves "blub" as it is |
| StringExtensions.SplitCsv | src/Dapplo.Utils/Extensions/StringExtensions.cs:244-246 | there is one field more than there are delimiters; no field contains the delimiter; no field starts or ends with white space; which text each field holds is stated by `SplitCsvJoined` |
| StringExtensions.SplitCsvJoined | src/Dapplo.Utils/Extensions/StringExtensions.cs:245 | pieces without the delimiter, joined into a line, come back as their trimmed texts, in order; pieces without surrounding white space come back as they were. Every line is such a join (`Text.JoinSplit`) |
| StringExtensions.SplitCsvExample | src/Dapplo.Utils/Extensions/StringExtensions.cs:245 | " a , b " gives the two fields "a" and "b" |
| StringExtensions.PairsOf | src/Dapplo.Utils/Extensions/StringExtensions.cs:256-260 | every pair comes from a field that is its name, "=" and its value; every field with exactly one '=' yields the two parts of its split as a pair; neither part of a pair contains '='; there are no more pairs than fields |
| StringExtensions.PairsOfConcat | src/Dapplo.Utils/Extensions/StringExtensions.cs:256-260 | the pairs keep the order of the fields: the pairs of two concatenated field lists are those of the first followed by those of the second |
| StringExtensions.FirstWins | src/Dapplo.Utils/Extensions/StringExtensions.cs:261-262 | the dictionary's keys are distinct ignoring case, and each key with its value is one of the pairs |
| StringExtensions.FirstWinsHoldsFirstPairs | src/Dapplo.Utils/Extensions/StringExtensions.cs:261-262 | grouping by name ignoring case and taking each group's first value holds exactly the first pair of each name |
| StringExtensions.SplitDictionary | src/Dapplo.Utils/Extensions/StringExtensions.cs:254-263 | no two keys are equal ignoring case; every first pair of a name is present with its value; every key comes from such a pair |
| StringExtensions.SplitDictionaryFirstFieldWins | src/Dapplo.Utils/Extensions/StringExtensions.cs:254-263 | the pair in the first field of a line is always in the dictionary, with its value |
| StringExtensions.SplitDictionaryDropsLaterCaseVariant | src/Dapplo.Utils/Extensions/StringExtensions.cs:261 | a later name that differs from the first only in case is not a key |
| StringExtensions.SplitDictionaryExample | src/Dapplo.Utils.Tests/StringExtensionsTests.cs:95-102 | "value1=1,value2=2" has the key "value1" with the value "1" |
| AssemblyResolving.NoDuplicateNames | Dapplo.Utils/Resolving/AssemblyResolver.cs:49 | a cache filed by name never holds two assemblies whose names are equal ignoring case |
| AssemblyResolving.Lookup | Dapplo.Utils/Resolving/AssemblyResolver.cs:204-211 | `TryGetValue` finds a cached assembly whose name equals the name ignoring case, and finds none only when no cached name is equal to it |
| AssemblyResolving.Registered | Dapplo.Utils/Resolving/AssemblyResolver.cs:66-79 | registering replaces no entry; a null assembly changes nothing; otherwise exactly the assembly's name is added, with the assembly, when that name was free; the filing by name is kept |
| AssemblyResolving.RegisteredIdempotent | Dapplo.Utils/Resolving/AssemblyResolver.cs:74-77 | registering the same assembly again changes nothing |
| AssemblyResolving.RegisteredResolves | Dapplo.Utils/Resolving/AssemblyResolver.cs:74-77 | after registering, the assembly's name resolves; it resolves to the assembly itself exactly when the name was free or already held it |
| AssemblyResolving.DllName | Dapplo.Utils/Resolving/AssemblyResolver.cs:233 | the resource and file name is the assembly name followed by ".dll": it starts with the name, ends with ".dll", and is four characters longer than the name |
| AssemblyResolving.FromFileOutcome | Dapplo.Utils/Resolving/AssemblyResolver.cs:169-176 | the outcomes of `LoadAssemblyFromFile`: a cached assembly at the path is returned with the cache unchanged; otherwise the file is loaded, a failure escapes with the cache unchanged, and a success is returned and registered |
| AssemblyResolving.FromStream | Dapplo.Utils/Resolving/AssemblyResolver.cs:184-194 | a null stream gives null; a non-null stream whose bytes load gives that assembly; a load that fails gives its failure |
| AssemblyResolving.EmbeddedStream | Dapplo.Utils/Resolving/AssemblyResolver.cs:233-239 | a found resource gives exactly what opening it gives, and a stream comes only from opening the found resource; a failing search gives its failure, and a search that finds nothing gives no stream |
| AssemblyResolving.FromEmbedded | Dapplo.Utils/Resolving/AssemblyResolver.cs:231-251 | a "<name>.dll" resource of a cached assembly whose stream loads gives that assembly; the result is null exactly when the search or the open fails, finds nothing, or the load fails; it never raises |
| AssemblyResolving.FromFileSystemOutcome | Dapplo.Utils/Resolving/AssemblyResolver.cs:271-286 | the outcomes of `LoadAssemblyFromFileSystem`: a failing scan escapes; an empty, missing or absent first path gives null; otherwise an outcome of `LoadAssemblyFromFile`, with its failure turned into null |
| AssemblyResolving.SourceOutcome | Dapplo.Utils/Resolving/AssemblyResolver.cs:214-221 | an attempt at the embedded source returns `FromEmbedded` and registers it; an attempt at the file system has an outcome `FromFileSystemOutcome` allows |
| AssemblyResolving.SourceKeepsCache | Dapplo.Utils/Resolving/AssemblyResolver.cs:167-177 | a source attempt keeps the cache filed by name and replaces no entry; the name of an assembly it returns is a cache key, possibly held by an assembly registered earlier |
| AssemblyResolving.OnlyTheScanRaises | Dapplo.Utils/Resolving/AssemblyResolver.cs:231-285 | the only failure that escapes a source is the failure of the directory scan, which comes before the try block, and it leaves the cache as it was |
| AssemblyResolving.NothingFoundKeepsCache | Dapplo.Utils/Resolving/AssemblyResolver.cs:214-221 | a source that returns null leaves the cache as it was, so the second source starts from the first one's cache |
| AssemblyResolving.SourceCachesNewName | Dapplo.Utils/Resolving/AssemblyResolver.cs:74-77 | an assembly a source returns under a name the cache did not hold is the one cached under that name afterwards |
| AssemblyResolving.LoadedFileIsReused | Dapplo.Utils/Resolving/AssemblyResolver.cs:170-176 | when nothing cached is at the path, and the loaded assembly reports the path as its Location under a free name, a second `LoadAssemblyFromFile` returns the same assembly without loading |
| AssemblyResolving.TakenNameLoadsAgain | Dapplo.Utils/Resolving/AssemblyResolver.cs:170-176 | when the loaded assembly's name is already cached, the cache is unchanged and a second `LoadAssemblyFromFile` for the path loads the file again |
| AssemblyResolving.FirstSource | Dapplo.Utils/Resolving/AssemblyResolver.cs:214-221 | embedded resources come first exactly when `ResolveEmbeddedBeforeFiles` is set |
| AssemblyResolving.Resolver.constructor | Dapplo.Utils/Resolving/AssemblyResolver.cs:54-95 | the initial state is an empty cache, no registrations, the resolve directory "." and embedded resources before files |
| AssemblyResolving.Resolver.Register | Dapplo.Utils/Resolving/AssemblyResolver.cs:66-79 | the cache becomes `Registered(old cache, assembly)`, and the invariant is kept |
| AssemblyResolving.Resolver.LoadAssemblyFromFile | Dapplo.Utils/Resolving/AssemblyResolver.cs:167-177 | a cached assembly whose Location is the path is returned without loading, and the cache is unchanged; otherwise the file is loaded, its failure escapes, and a success is registered |
| AssemblyResolving.Resolver.LoadAssemblyFromStream | Dapplo.Utils/Resolving/AssemblyResolver.cs:184-194 | the result is `FromStream`; only a loaded assembly is registered |
| AssemblyResolving.Resolver.LoadEmbeddedAssembly | Dapplo.Utils/Resolving/AssemblyResolver.cs:231-251 | the result is `FromEmbedded` for the cache as it was, and it is registered |
| AssemblyResolving.Resolver.LoadAssemblyFromFileSystem | Dapplo.Utils/Resolving/AssemblyResolver.cs:258-261 | the outcome is that of the file system source over the resolve directories |
| AssemblyResolving.Resolver.LoadAssemblyFromDirectories | Dapplo.Utils/Resolving/AssemblyResolver.cs:269-287 | a failing scan escapes; an empty or missing first path gives null with the cache unchanged; otherwise the outcome of `LoadAssemblyFromFile`, with its failure turned into null; the resolve directories are scanned, not the directories passed in |
| AssemblyResolving.Resolver.TrySource | Dapplo.Utils/Resolving/AssemblyResolver.cs:214-221 | one attempt at a source changes only the cache, keeps the invariant, and its result and new cache are an outcome `SourceOutcome` allows |
| AssemblyResolving.Resolver.FindAssembly | Dapplo.Utils/Resolving/AssemblyResolver.cs:201-224 | a cached name returns the cached assembly, consults no source and leaves the cache unchanged; otherwise the first source follows the flag; the second is tried exactly when the first returned null; the result and cache are those of the last attempt; the cache only grows; the name of a returned assembly is a cache key, and the assembly itself is cached under it when that name was free |
| AssemblyResolving.Resolver.RegisterAssemblyResolve | Dapplo.Utils/Resolving/AssemblyResolver.cs:102-113 | the AppDomain's FriendlyName becomes registered; the handler is attached to this AppDomain only when its FriendlyName was not registered yet |
| AssemblyResolving.Resolver.UnegisterAssemblyResolve | Dapplo.Utils/Resolving/AssemblyResolver.cs:128-138 | the AppDomain's FriendlyName becomes unregistered; the handler is detached from this AppDomain only when its FriendlyName was registered |
| AssemblyResolving.Resolver.Dispose | Dapplo.Utils/Resolving/AssemblyResolver.cs:111 | disposing the returned registration unregisters its AppDomain, as `UnegisterAssemblyResolve` does |
| AssemblyResolving.RegisterTwiceSubscribesOnce | Dapplo.Utils/Resolving/AssemblyResolver.cs:102-138 | registering twice attaches the handler once, and disposing detaches it |
| AssemblyResolving.FindTwice | Dapplo.Utils/Resolving/AssemblyResolver.cs:201-224 | when the first `FindAssembly` returns an assembly of the requested name, a second call returns exactly that assembly, tries no source and leaves the cache unchanged |
| AssemblyResolving.SharedFriendlyNameMissesHandler | Dapplo.Utils/Resolving/AssemblyResolver.cs:104-110 | of two AppDomains with one FriendlyName, only the first registered gets the handler |
| AssemblyResolving.OtherDomainUnregistersName | Dapplo.Utils/Resolving/AssemblyResolver.cs:104-136 | unregistering a second AppDomain with the same FriendlyName leaves the first one's handler attached, and registering the first again attaches it twice |

## Left out

- Case mapping is ASCII only. `ToLowerInvariant` and the `OrdinalIgnoreCase` comparer are modelled on 'A'..'Z'; the Unicode case tables are not part of this model.
- `StartsWith` and `EndsWith` are modelled as ordinal comparisons, but the source calls the culture-sensitive overloads (FileTools.cs:72, :111; StringExtensions.cs:206). The two differ on strings with characters that carry no weight under culture comparison, such as the soft hyphen U+00AD. `"a.dll\u00AD".EndsWith("dll")` holds under culture comparison, and `"\u00AD\"x\""` passes the quote test at StringExtensions.cs:206. The model does not capture these cases: it keeps such a path in `RemoveExtensions`, and returns such a string unchanged from `RemoveStartEndQuotes`.
- Regex compilation is left out. `FilenameToRegex` yields the pattern text and the ignore-case option, not a compiled `Regex`, and matching is not modelled. The source escapes only '.', so a file name such as "a(" or "[x" gives a pattern that does not parse. `new Regex(...)` (FileTools.cs:89) then throws ArgumentException, which the model does not represent: it returns the pattern as Ok.
- Characters are Unicode scalar values, while .NET strings are sequences of UTF-16 code units. Lengths, indices and `regex.Length -= 1` (FileTools.cs:83) work on code units in the source. So for a file name that ends in a character outside the Basic Multilingual Plane and has no extension, the source cuts only the low surrogate and leaves a lone high surrogate; the model drops the whole character.
- `FilenameToRegex` takes its `prefix` as a string. A null prefix, which `new StringBuilder(null)` (FileTools.cs:69) treats as the empty string, is the caller passing "".
- A null `assemblyName` for `FindAssembly` and a null `filepath` for `LoadAssemblyFromFile` are left out; names and paths are strings. In the source, `TryGetValue` (AssemblyResolver.cs:207) and `Assembly.LoadFile` (:172) throw ArgumentNullException for them.
- Null elements inside the extension list, a null `filepath` for `RemoveExtensions` with a non-empty extension list, and a null receiver of the string extensions other than `RemoveStartEndQuotes` are left out. They would throw NullReferenceException. With an empty extension list the loop never calls `EndsWith` (FileTools.cs:109-116), so `RemoveExtensions(null, [])` returns null; the model has no null path.
- `FormatWith`, `MapToProperties` and `NonStrictEquals` are left out, and so is the `TextFieldParser` branch of `SplitCsv`, which is compiled only for NET461. `trimWhiteSpace` is accepted and, as in the modelled branch, ignored.
- `Assembly.location` is a plain field. A dynamic assembly (an `AssemblyBuilder` passed to `Register`) throws NotSupportedException from `Location`. In the source, every later `LoadAssemblyFromFile` then throws at AssemblyResolver.cs:169, and the file-system source returns null through its catch (:280-284). The model does not capture this.
- `AssemblyCache` is the cache's values, a set; the dictionary's enumeration order is not modelled. So the lookup by `Location` may return any matching cached assembly, and the resource search receives the set.
- The runtime calls are parameters, not code: `Assembly.LoadFile`, `Assembly.Load`, `FindEmbeddedResources`, `GetEmbeddedResourceAsStream`, `FileLocations.Scan` and `File.Exists`. Only the first element of the lazy scan and of the resource search is observed.
- The static constructor's registration of the calling, entry and executing assemblies is left out. The initial cache is empty.
- An AppDomain is modelled as an identity and its `FriendlyName`. The `AssemblyResolve` event is modelled as a multiset of subscriptions, one per attached handler; the handler delegate itself is not modelled.
- The parameterless `RegisterAssemblyResolve` and `UnegisterAssemblyResolve` overloads are left out. They pass `AppDomain.CurrentDomain`, which callers here pass as an argument.
- `ResolveEventHandler` is left out. It parses `args.Name` into an `AssemblyName`, and parsing assembly display names is not part of this model; its call of `FindAssembly` is modelled.
- Locking is left out. The dictionary is concurrent, and the model is sequential.
- Tracing in the catch blocks is left out.
- The doc comment of `LoadAssemblyFromFileSystem` (AssemblyResolver.cs:254) promises to load the assembly from the resolve directories "or return null". In the code, the scan (:273) and `File.Exists` (:274) run before the try block (:276), so a failing scan escapes, through `FindAssembly` as well. The model follows the code (`AssemblyResolving.OnlyTheScanRaises`).
- The `directories` argument of `LoadAssemblyFromFileSystem(directories, assemblyName)` is ignored by the code, which scans `ResolveDirectories`; the model does the same (`LoadAssemblyFromDirectories`).

## Findings

| source | as written | input that shows it | evidently intended | confidence | as-written member | corrected member |
|---|---|---|---|---|---|---|
| Dapplo.Utils.Shared/FileTools.cs:83 | `regex.Length -= 1` runs even when no extension was appended, so it cuts the last character of the file name (or of the prefix), and it throws when the builder is empty | `FilenameToRegex("Foo", [])` gives `^(.*\\)*Fo$`, which also accepts "Fo" | remove only the trailing '\|' after the last extension, so the whole file name is always required | not executed | FileTools.NoExtensionLosesLastCharacter | FileTools.IntendedPatternAgrees |

=== FILE: AssemblyResolver.dfy ===
/** Dapplo.Utils.Resolving.AssemblyResolver: the process-wide cache of loaded
    assemblies, the AssemblyResolve hook registrations, and the resolution
    order over the cache, embedded resources and the file system.

    The runtime calls behind the resolver (loading an assembly from a file or
    from bytes, searching the manifest resources of the cached assemblies,
    opening a resource stream, scanning directories, testing a file) are the
    fields of a Platform value that every operation receives. An exception
    thrown by one of them is an Err. */
module AssemblyResolving {
  import opened Wrappers
  import opened Text

  type Bytes = seq<bv8>

  /** An Assembly, seen through GetName().Name and Location. */
  datatype Assembly = Assembly(name: string, location: string)

  /** A manifest resource: the assembly that embeds it and its name. */
  datatype Resource = Resource(owner: Assembly, name: string)

  datatype Platform = Platform(
    /** Assembly.LoadFile(path) */
    loadFile: string -> Result<Assembly>,
    /** Assembly.Load(byte[]) */
    load: Bytes -> Result<Assembly>,
    /** FindEmbeddedResources(dllName).FirstOrDefault() over the cached
        assemblies; None when nothing matches. */
    findEmbeddedResource: (set<Assembly>, string) -> Result<Option<Resource>>,
    /** GetEmbeddedResourceAsStream(resource) read with ToByteArray; None for
        a null stream. */
    openResource: Resource -> Result<Option<Bytes>>,
    /** FileLocations.Scan(directories, fileName).FirstOrDefault() */
    scanFirst: (set<string>, string) -> Result<Option<string>>,
    /** File.Exists(path) */
    fileExists: string -> bool)

  /** The two places an uncached assembly is looked for. */
  datatype Source = Embedded | FileSystem

  /** The cache, a dictionary with the StringComparer.OrdinalIgnoreCase
      comparer: each entry is filed under the case-insensitive form of the
      name it was registered with. */
  type Cache = map<string, Assembly>

  /** Every entry is filed under its own assembly's name. */
  predicate KeyedByName(cache: Cache) {
    forall k :: k in cache ==> CaseKey(cache[k].name) == k
  }

  /** A cache filed by name never holds two assemblies whose names are equal
      ignoring case. */
  lemma NoDuplicateNames(cache: Cache, a: Assembly, b: Assembly)
    requires KeyedByName(cache)
    requires a in cache.Values && b in cache.Values
    requires EqualsIgnoreCase(a.name, b.name)
    ensures a == b
  {
    var ka :| ka in cache && cache[ka] == a;
    var kb :| kb in cache && cache[kb] == b;
  }

  /** Assemblies.TryGetValue(name): the entry whose name equals name
      ignoring case. */
  function Lookup(cache: Cache, name: string): (r: Option<Assembly>)
    ensures KeyedByName(cache) && r.Some? ==> r.value in cache.Values && EqualsIgnoreCase(r.value.name, name)
    ensures KeyedByName(cache) && r.None? ==> forall a :: a in cache.Values ==> !EqualsIgnoreCase(a.name, name)
  {
    if CaseKey(name) in cache then Some(cache[CaseKey(name)]) else None
  }

  /** The cache after Register(assembly): a null assembly changes nothing;
      otherwise the assembly is added under its name unless that name is
      already taken, ignoring case. */
  function Registered(cache: Cache, assembly: Option<Assembly>): (c: Cache)
    ensures forall k :: k in cache ==> k in c && c[k] == cache[k]
    ensures assembly.None? ==> c == cache
    ensures assembly.Some? ==> c.Keys == cache.Keys + {CaseKey(assembly.value.name)}
    ensures assembly.Some? && CaseKey(assembly.value.name) !in cache ==> c[CaseKey(assembly.value.name)] == assembly.value
    ensures KeyedByName(cache) ==> KeyedByName(c)
  {
    match assembly
    case None => cache
    case Some(a) => if CaseKey(a.name) in cache then cache else cache[CaseKey(a.name) := a]
  }

  /** Registering again changes nothing. */
  lemma RegisteredIdempotent(cache: Cache, assembly: Option<Assembly>)
    ensures Registered(Registered(cache, assembly), assembly) == Registered(cache, assembly)
  {
  }

  /** After registering, the assembly's name resolves; to the assembly
      itself exactly when the name was free. */
  lemma RegisteredResolves(cache: Cache, a: Assembly)
    ensures Lookup(Registered(cache, Some(a)), a.name).Some?
    ensures Lookup(Registered(cache, Some(a)), a.name) == Some(a) <==> Lookup(cache, a.name) in {None, Some(a)}
  {
  }

  /** "{assemblyName}.dll", the file and resource name both sources look for. */
  function DllName(assemblyName: string): (r: string)
    ensures EndsWith(r, ".dll") && StartsWith(r, assemblyName)
    ensures |r| == |assemblyName| + 4
  {
    var r := assemblyName + ".dll";
    assert r[|r| - 4..] == ".dll";
    assert r[..|assemblyName|] == assemblyName;
    r
  }

  /** The outcomes LoadAssemblyFromFile allows. When some cached assembly has
      the path as its Location, that assembly is returned and nothing is
      loaded; the dictionary's values are enumerated in no specified order,
      so with several such assemblies any of them may be the one. Otherwise
      the file is loaded, a failure escapes, and a success is registered. */
  ghost predicate FromFileOutcome(env: Platform, cache: Cache, path: string, r: Result<Assembly>, after: Cache) {
    if exists a :: a in cache.Values && a.location == path then
      r.Ok? && r.value in cache.Values && r.value.location == path && after == cache
    else
      r == env.loadFile(path) && after == (if r.Ok? then Registered(cache, Some(r.value)) else cache)
  }

  /** LoadAssemblyFromStream: null for a null stream; otherwise the loaded
      assembly, or the failure of the load. */
  function FromStream(env: Platform, stream: Option<Bytes>): (r: Result<Option<Assembly>>)
    ensures stream.None? ==> r == Ok(None)
    ensures r.Ok? && r.value.Some? ==> stream.Some? && env.load(stream.value) == Ok(r.value.value)
    ensures r.Err? ==> stream.Some? && env.load(stream.value).Err?
    ensures stream.Some? && env.load(stream.value).Ok? ==> r == Ok(Some(env.load(stream.value).value))
    ensures stream.Some? && env.load(stream.value).Err? ==> r == Err(env.load(stream.value).error)
  {
    match stream
    case None => Ok(None)
    case Some(bytes) =>
      match env.load(bytes)
      case Ok(a) => Ok(Some(a))
      case Err(e) => Err(e)
  }

  /** What the try block of LoadEmbeddedAssembly opens: the stream of the
      first resource named "<name>.dll" among the cached assemblies. */
  function EmbeddedStream(env: Platform, cache: Cache, assemblyName: string): (r: Result<Option<Bytes>>)
    ensures var found := env.findEmbeddedResource(cache.Values, DllName(assemblyName));
            r.Ok? && r.value.Some? ==> found.Ok? && found.value.Some? && env.openResource(found.value.value) == r
    ensures var found := env.findEmbeddedResource(cache.Values, DllName(assemblyName));
            found.Err? || found == Ok(None) ==> r == (if found.Err? then Err(found.error) else Ok(None))
    ensures var found := env.findEmbeddedResource(cache.Values, DllName(assemblyName));
            found.Ok? && found.value.Some? ==> r == env.openResource(found.value.value)
  {
    match env.findEmbeddedResource(cache.Values, DllName(assemblyName))
    case Err(e) => Err(e)
    case Ok(None) => Ok(None)
    case Ok(Some(resource)) => env.openResource(resource)
  }

  /** LoadEmbeddedAssembly: every failure inside the try block is caught and
      gives null, so the result is an assembly loaded from the resource's
      bytes or nothing. */
  function FromEmbedded(env: Platform, cache: Cache, assemblyName: string): (r: Option<Assembly>)
    ensures r.Some? ==>
              exists bytes :: EmbeddedStream(env, cache, assemblyName) == Ok(Some(bytes)) && env.load(bytes) == Ok(r.value)
    ensures var stream := EmbeddedStream(env, cache, assemblyName);
            stream.Ok? && stream.value.Some? && env.load(stream.value.value).Ok? ==>
              r == Some(env.load(stream.value.value).value)
    ensures var stream := EmbeddedStream(env, cache, assemblyName);
            r.None? <==> stream.Err? || stream.value.None? || env.load(stream.value.value).Err?
  {
    match EmbeddedStream(env, cache, assemblyName)
    case Err(_) => None
    case Ok(stream) =>
      match FromStream(env, stream)
      case Ok(loaded) => loaded
      case Err(_) => None
  }

  /** The outcomes LoadAssemblyFromFileSystem allows. The scan of the
      resolve directories happens before the try block, so its failure
      escapes; an empty or missing first path gives null; a failure of the
      file load is caught and gives null. */
  ghost predicate FromFileSystemOutcome(env: Platform, directories: set<string>, cache: Cache, assemblyName: string,
                                        r: Result<Option<Assembly>>, after: Cache) {
    match env.scanFirst(directories, DllName(assemblyName))
    case Err(e) => r == Err(e) && after == cache
    case Ok(found) =>
      if found.None? || found.value == [] || !env.fileExists(found.value) then
        r == Ok(None) && after == cache
      else
        exists loaded :: FromFileOutcome(env, cache, found.value, loaded, after)
                         && r == Ok(if loaded.Ok? then Some(loaded.value) else None)
  }

  /** One attempt of FindAssembly at a source: which source, the cache it
      started from, what it returned and the cache it left. */
  datatype Attempt = Attempt(source: Source, before: Cache, result: Result<Option<Assembly>>, after: Cache)

  /** An attempt that the source allows, for the given resolve directories. */
  ghost predicate SourceOutcome(env: Platform, directories: set<string>, assemblyName: string, at: Attempt) {
    match at.source
    case Embedded =>
      var loaded := FromEmbedded(env, at.before, assemblyName);
      at.result == Ok(loaded) && at.after == Registered(at.before, loaded)
    case FileSystem =>
      FromFileSystemOutcome(env, directories, at.before, assemblyName, at.result, at.after)
  }

  /** The cache only grows, and no entry is ever replaced. */
  predicate Extends(before: Cache, after: Cache) {
    forall k :: k in before ==> k in after && after[k] == before[k]
  }

  /** A source attempt keeps the cache filed by name and replaces no entry.
      The name of whatever it returns is a key of the cache, possibly held by
      an assembly registered earlier: Register skips a taken name, and the
      freshly loaded assembly is returned all the same. */
  lemma SourceKeepsCache(env: Platform, directories: set<string>, assemblyName: string, at: Attempt)
    requires SourceOutcome(env, directories, assemblyName, at) && KeyedByName(at.before)
    ensures KeyedByName(at.after) && Extends(at.before, at.after)
    ensures at.result.Ok? && at.result.value.Some? ==> CaseKey(at.result.value.value.name) in at.after
  {
    if at.source == FileSystem {
      var found := env.scanFirst(directories, DllName(assemblyName));
      if found.Ok? && !(found.value.None? || found.value.value == [] || !env.fileExists(found.value.value)) {
        var loaded :| FromFileOutcome(env, at.before, found.value.value, loaded, at.after)
                      && at.result == Ok(if loaded.Ok? then Some(loaded.value) else None);
        if loaded.Ok? && exists a :: a in at.before.Values && a.location == found.value.value {
          var k :| k in at.before && at.before[k] == loaded.value;
        }
      }
    }
  }

  /** No exception escapes the embedded source or the file load; the only
      one that escapes a source is the failure of the directory scan. */
  lemma OnlyTheScanRaises(env: Platform, directories: set<string>, assemblyName: string, at: Attempt)
    requires SourceOutcome(env, directories, assemblyName, at)
    requires at.result.Err?
    ensures at.source == FileSystem
    ensures env.scanFirst(directories, DllName(assemblyName)) == Err(at.result.error)
    ensures at.after == at.before
  {
  }

  /** A source that returns nothing leaves the cache as it was. */
  lemma NothingFoundKeepsCache(env: Platform, directories: set<string>, assemblyName: string, at: Attempt)
    requires SourceOutcome(env, directories, assemblyName, at)
    requires at.result == Ok(None)
    ensures at.after == at.before
  {
  }

  /** An assembly a source returns under a name the cache did not hold is
      the one cached under that name afterwards. */
  lemma SourceCachesNewName(env: Platform, directories: set<string>, assemblyName: string, at: Attempt)
    requires SourceOutcome(env, directories, assemblyName, at) && KeyedByName(at.before)
    requires at.result.Ok? && at.result.value.Some?
    requires Lookup(at.before, at.result.value.value.name).None?
    ensures Lookup(at.after, at.result.value.value.name) == at.result.value
  {
    var a := at.result.value.value;
    if at.source == FileSystem {
      var found := env.scanFirst(directories, DllName(assemblyName));
      var path := found.value.value;
      var loaded :| FromFileOutcome(env, at.before, path, loaded, at.after)
                    && at.result == Ok(if loaded.Ok? then Some(loaded.value) else None);
      assert loaded == Ok(a);
      forall x | x in at.before.Values
        ensures CaseKey(x.name) in at.before
      {
        var k :| k in at.before && at.before[k] == x;
      }
    }
  }

  /** One path is loaded once: a file whose assembly reports the path as its
      Location and whose name was free is cached by the first
      LoadAssemblyFromFile, and a second call returns that same assembly
      without loading. */
  lemma LoadedFileIsReused(env: Platform, cache: Cache, path: string, r1: Result<Assembly>, mid: Cache,
                           r2: Result<Assembly>, after: Cache)
    requires KeyedByName(cache)
    requires forall a :: a in cache.Values ==> a.location != path
    requires FromFileOutcome(env, cache, path, r1, mid) && FromFileOutcome(env, mid, path, r2, after)
    requires r1.Ok? && r1.value.location == path && Lookup(cache, r1.value.name).None?
    ensures r2 == r1 && after == mid
  {
    var a := r1.value;
    assert mid == cache[CaseKey(a.name) := a];
    assert a in mid.Values;
    forall x | x in mid.Values
      ensures x == a || x in cache.Values
    {
      var k :| k in mid && mid[k] == x;
    }
  }

  /** The counter-case: when the loaded assembly's name is already cached,
      Register keeps the earlier assembly, so nothing in the cache has the
      path as its Location and a second LoadAssemblyFromFile loads the file
      again. */
  lemma TakenNameLoadsAgain(env: Platform, cache: Cache, path: string, r1: Result<Assembly>, mid: Cache,
                            r2: Result<Assembly>, after: Cache)
    requires forall a :: a in cache.Values ==> a.location != path
    requires FromFileOutcome(env, cache, path, r1, mid) && FromFileOutcome(env, mid, path, r2, after)
    requires r1.Ok? && Lookup(cache, r1.value.name).Some?
    ensures mid == cache
    ensures r2 == env.loadFile(path) && r2 == r1
  {
  }

  /** The source FindAssembly tries first. */
  function FirstSource(resolveEmbeddedBeforeFiles: bool): (s: Source)
    ensures s == Embedded <==> resolveEmbeddedBeforeFiles
  {
    if resolveEmbeddedBeforeFiles then Embedded else FileSystem
  }

  /** The other source. */
  function Other(s: Source): (t: Source)
    ensures t != s
  {
    if s == Embedded then FileSystem else Embedded
  }

  /** An AppDomain: its identity as an object, and its FriendlyName. Two
      AppDomains may share a FriendlyName. */
  datatype AppDomain = AppDomain(id: nat, friendlyName: string)

  /** The IDisposable RegisterAssemblyResolve returns: disposing it
      unregisters the AppDomain it was created for. */
  datatype Registration = Registration(appDomain: AppDomain)

  /** The static state of AssemblyResolver. The registrations are the
      FriendlyNames of the AppDomains seen; subscriptions counts, per
      AppDomain object, how often the resolve handler is attached to its
      AssemblyResolve event. */
  class Resolver {
    var assemblies: Cache
    var appDomainRegistrations: set<string>
    var resolveDirectories: set<string>
    var resolveEmbeddedBeforeFiles: bool
    var subscriptions: multiset<AppDomain>

    /** The cache is filed by name, and every registered FriendlyName
        belongs to an AppDomain that has the handler attached. */
    ghost predicate Valid()
      reads this
    {
      && KeyedByName(assemblies)
      && forall name :: name in appDomainRegistrations ==>
           exists d :: d in subscriptions && d.friendlyName == name
    }

    /** The static initial state: an empty cache (the calling, entry and
        executing assemblies the static constructor registers are not part
        of this model), no registrations, the directory ".", embedded
        resources before files. */
    constructor ()
      ensures Valid()
      ensures assemblies == map[] && appDomainRegistrations == {} && subscriptions == multiset{}
      ensures resolveDirectories == {"."} && resolveEmbeddedBeforeFiles
    {
      assemblies := map[];
      appDomainRegistrations := {};
      subscriptions := multiset{};
      resolveDirectories := {"."};
      resolveEmbeddedBeforeFiles := true;
    }

    /** AssemblyResolver.Register(assembly) */
    method Register(assembly: Option<Assembly>)
      requires Valid()
      modifies this`assemblies
      ensures Valid()
      ensures assemblies == Registered(old(assemblies), assembly)
    {
      if assembly.None? {
        return;
      }
      var key := CaseKey(assembly.value.name);
      if key !in assemblies {
        assemblies := assemblies[key := assembly.value];
      }
    }

    /** AssemblyResolver.LoadAssemblyFromFile(filepath) */
    method LoadAssemblyFromFile(filepath: string, env: Platform) returns (r: Result<Assembly>)
      requires Valid()
      modifies this`assemblies
      ensures Valid()
      ensures FromFileOutcome(env, old(assemblies), filepath, r, assemblies)
    {
      if cached :| cached in assemblies.Values && cached.location == filepath {
        return Ok(cached);
      }
      r := env.loadFile(filepath);
      if r.Ok? {
        Register(Some(r.value));
      }
    }

    /** AssemblyResolver.LoadAssemblyFromStream(stream) */
    method LoadAssemblyFromStream(stream: Option<Bytes>, env: Platform) returns (r: Result<Option<Assembly>>)
      requires Valid()
      modifies this`assemblies
      ensures Valid()
      ensures r == FromStream(env, stream)
      ensures assemblies == Registered(old(assemblies), if r.Ok? then r.value else None)
    {
      if stream.None? {
        return Ok(None);
      }
      var loaded := env.load(stream.value);
      if loaded.Err? {
        return Err(loaded.error);
      }
      Register(Some(loaded.value));
      r := Ok(Some(loaded.value));
    }

    /** AssemblyResolver.LoadEmbeddedAssembly(assemblyName) */
    method LoadEmbeddedAssembly(assemblyName: string, env: Platform) returns (r: Option<Assembly>)
      requires Valid()
      modifies this`assemblies
      ensures Valid()
      ensures r == FromEmbedded(env, old(assemblies), assemblyName)
      ensures assemblies == Registered(old(assemblies), r)
    {
      var dllName := DllName(assemblyName);
      var found := env.findEmbeddedResource(assemblies.Values, dllName);
      if found.Err? || found.value.None? {
        return None;
      }
      var stream := env.openResource(found.value.value);
      if stream.Err? {
        return None;
      }
      var loaded := LoadAssemblyFromStream(stream.value, env);
      if loaded.Err? {
        return None;
      }
      r := loaded.value;
    }

    /** AssemblyResolver.LoadAssemblyFromFileSystem(assemblyName): the
        resolve directories. */
    method LoadAssemblyFromFileSystem(assemblyName: string, env: Platform) returns (r: Result<Option<Assembly>>)
      requires Valid()
      modifies this`assemblies
      ensures Valid()
      ensures FromFileSystemOutcome(env, resolveDirectories, old(assemblies), assemblyName, r, assemblies)
    {
      r := LoadAssemblyFromDirectories(resolveDirectories, assemblyName, env);
    }

    /** AssemblyResolver.LoadAssemblyFromFileSystem(directories,
        assemblyName). The code scans the resolve directories, not the
        directories passed in. */
    method LoadAssemblyFromDirectories(directories: set<string>, assemblyName: string, env: Platform)
      returns (r: Result<Option<Assembly>>)
      requires Valid()
      modifies this`assemblies
      ensures Valid()
      ensures FromFileSystemOutcome(env, resolveDirectories, old(assemblies), assemblyName, r, assemblies)
    {
      var dllName := DllName(assemblyName);
      var found := env.scanFirst(resolveDirectories, dllName);
      if found.Err? {
        return Err(found.error);
      }
      var filepath := found.value;
      if filepath.None? || filepath.value == [] || !env.fileExists(filepath.value) {
        return Ok(None);
      }
      var loaded := LoadAssemblyFromFile(filepath.value, env);
      if loaded.Ok? {
        r := Ok(Some(loaded.value));
      } else {
        r := Ok(None);
      }
    }

    /** A source attempt of FindAssembly. */
    method TrySource(source: Source, assemblyName: string, env: Platform) returns (r: Result<Option<Assembly>>, ghost at: Attempt)
      requires Valid()
      modifies this`assemblies
      ensures Valid()
      ensures at == Attempt(source, old(assemblies), r, assemblies)
      ensures SourceOutcome(env, resolveDirectories, assemblyName, at)
    {
      ghost var before := assemblies;
      if source == Embedded {
        var loaded := LoadEmbeddedAssembly(assemblyName, env);
        r := Ok(loaded);
      } else {
        r := LoadAssemblyFromFileSystem(assemblyName, env);
      }
      at := Attempt(source, before, r, assemblies);
    }

    /** AssemblyResolver.FindAssembly(assemblyName). A cached name is
        answered from the cache alone. Otherwise the two sources are tried in
        the order resolveEmbeddedBeforeFiles sets; the second only when the
        first returned null, and not at all when the first raised. */
    method FindAssembly(assemblyName: string, env: Platform) returns (r: Result<Option<Assembly>>, ghost attempts: seq<Attempt>)
      requires Valid()
      modifies this`assemblies
      ensures Valid()
      ensures Lookup(old(assemblies), assemblyName).Some? ==>
                r == Ok(Lookup(old(assemblies), assemblyName)) && attempts == [] && assemblies == old(assemblies)
      ensures Lookup(old(assemblies), assemblyName).None? ==>
                && 1 <= |attempts| <= 2
                && attempts[0].source == FirstSource(resolveEmbeddedBeforeFiles)
                && attempts[0].before == old(assemblies)
                && (|attempts| == 2 <==> attempts[0].result == Ok(None))
                && (|attempts| == 2 ==> attempts[1].source == Other(attempts[0].source)
                                        && attempts[1].before == attempts[0].after)
                && (forall i :: 0 <= i < |attempts| ==> SourceOutcome(env, resolveDirectories, assemblyName, attempts[i]))
                && r == attempts[|attempts| - 1].result
                && assemblies == attempts[|attempts| - 1].after
      ensures Extends(old(assemblies), assemblies)
      ensures r.Ok? && r.value.Some? ==> Lookup(assemblies, r.value.value.name).Some?
      ensures r.Ok? && r.value.Some? && Lookup(old(assemblies), r.value.value.name).None? ==>
                Lookup(assemblies, r.value.value.name) == r.value
    {
      if CaseKey(assemblyName) in assemblies {
        return Ok(Some(assemblies[CaseKey(assemblyName)])), [];
      }
      var first := FirstSource(resolveEmbeddedBeforeFiles);
      ghost var firstAttempt;
      r, firstAttempt := TrySource(first, assemblyName, env);
      attempts := [firstAttempt];
      SourceKeepsCache(env, resolveDirectories, assemblyName, firstAttempt);
      if r == Ok(None) {
        NothingFoundKeepsCache(env, resolveDirectories, assemblyName, firstAttempt);
        ghost var secondAttempt;
        r, secondAttempt := TrySource(Other(first), assemblyName, env);
        attempts := attempts + [secondAttempt];
        SourceKeepsCache(env, resolveDirectories, assemblyName, secondAttempt);
        if r.Ok? && r.value.Some? && Lookup(secondAttempt.before, r.value.value.name).None? {
          SourceCachesNewName(env, resolveDirectories, assemblyName, secondAttempt);
        }
      } else if r.Ok? && r.value.Some? && Lookup(firstAttempt.before, r.value.value.name).None? {
        SourceCachesNewName(env, resolveDirectories, assemblyName, firstAttempt);
      }
    }

    /** AssemblyResolver.RegisterAssemblyResolve(appDomain): the handler is
        attached to this AppDomain only when its FriendlyName is not
        registered yet. */
    method RegisterAssemblyResolve(appDomain: AppDomain) returns (registration: Registration)
      requires Valid()
      modifies this`appDomainRegistrations, this`subscriptions
      ensures Valid()
      ensures appDomainRegistrations == old(appDomainRegistrations) + {appDomain.friendlyName}
      ensures subscriptions == if appDomain.friendlyName in old(appDomainRegistrations) then old(subscriptions)
                               else old(subscriptions) + multiset{appDomain}
      ensures registration == Registration(appDomain)
    {
      if appDomain.friendlyName !in appDomainRegistrations {
        appDomainRegistrations := appDomainRegistrations + {appDomain.friendlyName};
        subscriptions := subscriptions + multiset{appDomain};
      }
      registration := Registration(appDomain);
    }

    /** AssemblyResolver.UnegisterAssemblyResolve(appDomain): when its
        FriendlyName is registered, the name is removed and the handler is
        detached from this AppDomain; detaching a handler that is not
        attached changes nothing. */
    method UnegisterAssemblyResolve(appDomain: AppDomain)
      requires Valid()
      modifies this`appDomainRegistrations, this`subscriptions
      ensures Valid()
      ensures appDomainRegistrations == old(appDomainRegistrations) - {appDomain.friendlyName}
      ensures subscriptions == if appDomain.friendlyName in old(appDomainRegistrations) then old(subscriptions) - multiset{appDomain}
                               else old(subscriptions)
    {
      if appDomain.friendlyName in appDomainRegistrations {
        appDomainRegistrations := appDomainRegistrations - {appDomain.friendlyName};
        subscriptions := subscriptions - multiset{appDomain};
      }
    }

    /** Disposing the registration RegisterAssemblyResolve returned. */
    method Dispose(registration: Registration)
      requires Valid()
      modifies this`appDomainRegistrations, this`subscriptions
      ensures Valid()
      ensures appDomainRegistrations == old(appDomainRegistrations) - {registration.appDomain.friendlyName}
      ensures subscriptions == if registration.appDomain.friendlyName in old(appDomainRegistrations)
                               then old(subscriptions) - multiset{registration.appDomain}
                               else old(subscriptions)
    {
      UnegisterAssemblyResolve(registration.appDomain);
    }
  }

  /** Registering an AppDomain twice attaches the handler once, and
      disposing the registration detaches it again. */
  method RegisterTwiceSubscribesOnce(resolver: Resolver, appDomain: AppDomain)
    requires resolver.Valid()
    requires appDomain.friendlyName !in resolver.appDomainRegistrations && appDomain !in resolver.subscriptions
    modifies resolver
    ensures resolver.Valid() && appDomain !in resolver.subscriptions
    ensures appDomain.friendlyName !in resolver.appDomainRegistrations
  {
    var first := resolver.RegisterAssemblyResolve(appDomain);
    var second := resolver.RegisterAssemblyResolve(appDomain);
    assert resolver.subscriptions[appDomain] == 1;
    resolver.Dispose(second);
  }

  /** Resolving a name twice: when the first FindAssembly returns an
      assembly of the requested name, the second returns exactly that
      assembly, tries no source and leaves the cache as the first left it. */
  method FindTwice(resolver: Resolver, assemblyName: string, env: Platform, later: Platform)
    returns (first: Result<Option<Assembly>>, second: Result<Option<Assembly>>, ghost cached: Cache, ghost again: seq<Attempt>)
    requires resolver.Valid()
    modifies resolver
    ensures resolver.Valid()
    ensures Extends(old(resolver.assemblies), cached)
    ensures first.Ok? && first.value.Some? && EqualsIgnoreCase(first.value.value.name, assemblyName) ==>
              second == first && again == [] && resolver.assemblies == cached
  {
    ghost var attempts;
    first, attempts := resolver.FindAssembly(assemblyName, env);
    cached := resolver.assemblies;
    second, again := resolver.FindAssembly(assemblyName, later);
  }

  /** Registrations are kept by FriendlyName: of two AppDomains that share
      one, only the first gets the handler. */
  method SharedFriendlyNameMissesHandler(resolver: Resolver, first: AppDomain, second: AppDomain)
    requires resolver.Valid()
    requires first != second && first.friendlyName == second.friendlyName
    requires first.friendlyName !in resolver.appDomainRegistrations
    requires first !in resolver.subscriptions && second !in resolver.subscriptions
    modifies resolver
    ensures resolver.Valid()
    ensures resolver.subscriptions[first] == 1 && second !in resolver.subscriptions
  {
    var r1 := resolver.RegisterAssemblyResolve(first);
    var r2 := resolver.RegisterAssemblyResolve(second);
  }

  /** Unregistering an AppDomain that shares its FriendlyName with a
      registered one removes the name and leaves the other's handler
      attached; registering that other AppDomain again then attaches its
      handler a second time. */
  method OtherDomainUnregistersName(resolver: Resolver, first: AppDomain, second: AppDomain)
    requires resolver.Valid()
    requires first != second && first.friendlyName == second.friendlyName
    requires first.friendlyName !in resolver.appDomainRegistrations
    requires first !in resolver.subscriptions && second !in resolver.subscriptions
    modifies resolver
    ensures resolver.Valid()
    ensures resolver.subscriptions[first] == 2
  {
    var r1 := resolver.RegisterAssemblyResolve(first);
    resolver.UnegisterAssemblyResolve(second);
    assert resolver.subscriptions[first] == 1 && first.friendlyName !in resolver.appDomainRegistrations;
    var r2 := resolver.RegisterAssemblyResolve(first);
  }
}

=== FILE: FileTools.dfy ===
/** Dapplo.Utils.FileTools: the regular expression FilenameToRegex builds
    from a wildcard file name and a list of extensions (as its pattern text
    and options), and RemoveExtensions. */
module FileTools {
  import opened Wrappers
  import opened Text

  /** The default prefix @"^(.*\\)*": any number of leading directories. */
  const DefaultPrefix: string := "^(.*\\\\)*"

  /** What a * becomes, @"[^\\]*": any run of characters other than the
      path separator. */
  const AnyButSeparator: string := "[^\\\\]*"

  /** The pattern text and the options of the Regex FilenameToRegex returns. */
  datatype Regex = Regex(pattern: string, ignoreCase: bool)

  /** The regex text one character of a wildcard file name stands for. */
  function WildcardChar(c: char): string {
    if c == '.' then "\\." else if c == '?' then "." else if c == '*' then AnyButSeparator else [c]
  }

  /** The wildcard file name as regex text: a dot matches only a dot, a ?
      any one character, a * any run without a path separator; every other
      character stands for itself. */
  function TranslateWildcards(filename: string): string {
    if filename == [] then [] else WildcardChar(filename[0]) + TranslateWildcards(filename[1..])
  }

  lemma OneCharTranslates(x: char)
    ensures Replace(ReplaceChar(Replace([x], ".", "\\."), '?', '.'), "*", AnyButSeparator) == WildcardChar(x)
  {
    var dots := Replace([x], ".", "\\.");
    assert [x][..1] == [x];
    assert dots == if x == '.' then "\\." else [x];
    var marks := ReplaceChar(dots, '?', '.');
    assert marks == if x == '.' then "\\." else if x == '?' then "." else [x];
    if x == '.' {
      assert marks[..1] == "\\";
      assert marks[1..][..1] == ".";
    } else {
      assert marks[..1] == marks;
    }
  }

  /** The three replacements FilenameToRegex applies, in their order (dots
      escaped, then ? to a dot, then * to a run), translate the file name
      character by character: the dot a ? becomes is not escaped, and the *
      inside the text a * becomes is not replaced again. */
  lemma {:induction false} ReplacementsTranslateWildcards(filename: string)
    ensures Replace(ReplaceChar(Replace(filename, ".", "\\."), '?', '.'), "*", AnyButSeparator)
            == TranslateWildcards(filename)
  {
    if filename != [] {
      var x, t := filename[0], filename[1..];
      assert filename == [x] + t;
      ReplaceOneCharOverConcat([x], t, '.', "\\.");
      var d1, d2 := Replace([x], ".", "\\."), Replace(t, ".", "\\.");
      ReplaceCharOverConcat(d1, d2, '?', '.');
      ReplaceOneCharOverConcat(ReplaceChar(d1, '?', '.'), ReplaceChar(d2, '?', '.'), '*', AnyButSeparator);
      OneCharTranslates(x);
      ReplacementsTranslateWildcards(t);
    }
  }

  /** e.TrimStart('.') */
  function TrimLeadingDots(e: string): (r: string)
    ensures EndsWith(e, r)
    ensures forall i :: 0 <= i < |e| - |r| ==> e[i] == '.'
    ensures !StartsWith(r, ".")
  {
    if e != [] && e[0] == '.' then TrimLeadingDots(e[1..]) else e
  }

  /** e.StartsWith(".") ? e.TrimStart('.') : e */
  function CleanExtension(e: string): string {
    if StartsWith(e, ".") then TrimLeadingDots(e) else e
  }

  /** A cleaned extension is the extension without its leading dots. */
  lemma CleanExtensionDropsLeadingDots(e: string)
    ensures !StartsWith(CleanExtension(e), ".")
    ensures EndsWith(e, CleanExtension(e))
    ensures forall i :: 0 <= i < |e| - |CleanExtension(e)| ==> e[i] == '.'
  {
  }

  function CleanExtensions(extensions: seq<string>): seq<string> {
    seq(|extensions|, i requires 0 <= i < |extensions| => CleanExtension(extensions[i]))
  }

  /** What one cleaned extension contributes: an escaped dot, then the
      extension with its dots escaped. */
  function ExtensionAlternative(e: string): string {
    "\\." + Replace(e, ".", "\\.")
  }

  function Alternatives(cleaned: seq<string>): seq<string> {
    seq(|cleaned|, i requires 0 <= i < |cleaned| => ExtensionAlternative(cleaned[i]))
  }

  /** The alternation of the extensions, in parentheses when there are
      several. */
  function ExtensionGroup(cleaned: seq<string>): string {
    var alternation := Join(Alternatives(cleaned), '|');
    if |cleaned| > 1 then "(" + alternation + ")" else alternation
  }

  /** The pattern text FilenameToRegex builds: prefix, translated file name,
      extension group, "$". With no extension at all, the truncation meant for
      the last '|' cuts the last character of prefix and file name instead,
      and throws when there is none. */
  function FilenamePattern(filename: string, extensions: seq<string>, prefix: string): (r: Result<string>)
    ensures r.Err? <==> prefix == [] && filename == [] && extensions == []
    ensures r.Err? ==> r.error == ArgumentOutOfRange("value")
    ensures r.Ok? ==> EndsWith(r.value, "$")
    ensures extensions != [] ==> r.Ok? && StartsWith(r.value, prefix + TranslateWildcards(filename))
  {
    var head := prefix + TranslateWildcards(filename);
    var cleaned := CleanExtensions(extensions);
    if cleaned == [] then
      if head == [] then Err(ArgumentOutOfRange("value")) else Ok(head[..|head| - 1] + "$")
    else
      var r := head + ExtensionGroup(cleaned) + "$";
      assert r[..|head|] == head;
      Ok(r)
  }

  lemma FilenamePatternOfParts(filename: string, extensions: seq<string>, prefix: string)
    ensures var head := prefix + TranslateWildcards(filename);
            var cleaned := CleanExtensions(extensions);
            FilenamePattern(filename, extensions, prefix)
            == if cleaned != [] then Ok(head + ExtensionGroup(cleaned) + "$")
               else if head == [] then Err(ArgumentOutOfRange("value"))
               else Ok(head[..|head| - 1] + "$")
  {
  }

  /** The text the foreach loop has appended after its first n rounds:
      each alternative followed by '|'. */
  function BarredAlternatives(cleaned: seq<string>, n: nat): string
    requires n <= |cleaned|
  {
    if n == 0 then [] else BarredAlternatives(cleaned, n - 1) + ExtensionAlternative(cleaned[n - 1]) + "|"
  }

  /** Appending "alternative|" per extension and dropping the last '|' is
      joining the alternatives with '|'. */
  lemma {:induction false} BarredAlternativesJoin(cleaned: seq<string>, n: nat)
    requires 1 <= n <= |cleaned|
    ensures BarredAlternatives(cleaned, n) == Join(Alternatives(cleaned[..n]), '|') + "|"
  {
    if n == 1 {
      assert Alternatives(cleaned[..1]) == [ExtensionAlternative(cleaned[0])];
    } else {
      BarredAlternativesJoin(cleaned, n - 1);
      assert Alternatives(cleaned[..n]) == Alternatives(cleaned[..n - 1]) + [ExtensionAlternative(cleaned[n - 1])];
      JoinSnoc(Alternatives(cleaned[..n - 1]), ExtensionAlternative(cleaned[n - 1]), '|');
    }
  }

  /** FileTools.FilenameToRegex(filename, extensions, ignoreCase, prefix):
      the null checks, then the pattern text the StringBuilder produces. */
  method FilenameToRegex(filename: Option<string>, extensions: Option<seq<string>>, ignoreCase: bool, prefix: string)
    returns (r: Result<Regex>)
    ensures filename.None? ==> r == Err(ArgumentNull("filename"))
    ensures filename.Some? && extensions.None? ==> r == Err(ArgumentNull("extensions"))
    ensures filename.Some? && extensions.Some? ==>
              var pattern := FilenamePattern(filename.value, extensions.value, prefix);
              (pattern.Ok? ==> r == Ok(Regex(pattern.value, ignoreCase))) && (pattern.Err? ==> r == Err(pattern.error))
  {
    if filename.None? {
      return Err(ArgumentNull("filename"));
    }
    if extensions.None? {
      return Err(ArgumentNull("extensions"));
    }
    var regex := prefix;
    regex := regex + Replace(ReplaceChar(Replace(filename.value, ".", "\\."), '?', '.'), "*", AnyButSeparator);
    ReplacementsTranslateWildcards(filename.value);
    var cleaned := CleanExtensions(extensions.value);
    if |cleaned| > 1 {
      regex := regex + "(";
    }
    regex := AppendAlternatives(regex, cleaned);
    BuiltTextMeetsPattern(filename.value, extensions.value, prefix, regex);
    if |regex| == 0 {
      return Err(ArgumentOutOfRange("value"));
    }
    regex := regex[..|regex| - 1];
    if |cleaned| > 1 {
      regex := regex + ")";
    }
    regex := regex + "$";
    r := Ok(Regex(regex, ignoreCase));
  }

  /** The foreach loop of FilenameToRegex: for every cleaned extension, an
      escaped dot, the extension with its dots escaped, and a '|'. */
  method AppendAlternatives(start: string, cleaned: seq<string>) returns (regex: string)
    ensures regex == start + BarredAlternatives(cleaned, |cleaned|)
  {
    regex := start;
    for i := 0 to |cleaned|
      invariant regex == start + BarredAlternatives(cleaned, i)
    {
      regex := regex + "\\.";
      regex := regex + Replace(cleaned[i], ".", "\\.");
      regex := regex + "|";
    }
  }

  /** What the builder holds after the loop, with its last character
      dropped and the group closed, is the pattern; an empty builder is the
      error case. */
  lemma BuiltTextMeetsPattern(filename: string, extensions: seq<string>, prefix: string, built: string)
    requires var head := prefix + TranslateWildcards(filename);
             var cleaned := CleanExtensions(extensions);
             built == (if |cleaned| > 1 then head + "(" else head) + BarredAlternatives(cleaned, |cleaned|)
    ensures |built| == 0 <==> FilenamePattern(filename, extensions, prefix).Err?
    ensures |built| > 0 ==>
              FilenamePattern(filename, extensions, prefix)
              == Ok((if |CleanExtensions(extensions)| > 1 then built[..|built| - 1] + ")" else built[..|built| - 1]) + "$")
  {
    var head := prefix + TranslateWildcards(filename);
    var cleaned := CleanExtensions(extensions);
    FilenamePatternOfParts(filename, extensions, prefix);
    if cleaned != [] {
      var opening := if |cleaned| > 1 then head + "(" else head;
      var joined := Join(Alternatives(cleaned), '|');
      BarredAlternativesJoin(cleaned, |cleaned|);
      assert cleaned[..|cleaned|] == cleaned;
      assert built == (opening + joined) + "|";
      DropLastOfAppended(opening + joined, '|');
      var dropped := built[..|built| - 1];
      assert dropped == opening + joined;
      if |cleaned| > 1 {
        assert ExtensionGroup(cleaned) == "(" + joined + ")";
        assert dropped + ")" + "$" == head + ExtensionGroup(cleaned) + "$";
      } else {
        assert ExtensionGroup(cleaned) == joined;
      }
    } else {
      assert built == head;
    }
  }

  lemma DropLastOfAppended(x: string, c: char)
    ensures (x + [c])[..|x|] == x
  {
  }

  /** The pattern of the doc comment's example, "Dapplo.*" with the
      extensions "dll" and "dll.gz": ^(.*\\)*Dapplo\.[^\\]*(\.dll|\.dll\.gz)$.
      The comment shows the * as ".*"; the code turns it into a run without
      a path separator. */
  lemma FilenamePatternExample(name: string, dll: string, gz: string, filename: string, extensions: seq<string>)
    requires name == "Dapplo" && dll == "dll" && gz == "gz"
    requires filename == name + ".*" && extensions == [dll, dll + "." + gz]
    ensures var translated := name + "\\." + AnyButSeparator;
            var group := "(" + "\\." + dll + "|" + "\\." + dll + "\\." + gz + ")";
            FilenamePattern(filename, extensions, DefaultPrefix) == Ok(DefaultPrefix + translated + group + "$")
  {
    ExampleTranslation(name, filename);
    ExampleGroup(dll, gz, extensions);
    FilenamePatternOfParts(filename, extensions, DefaultPrefix);
  }

  lemma ExampleGroup(dll: string, gz: string, extensions: seq<string>)
    requires dll == "dll" && gz == "gz" && extensions == [dll, dll + "." + gz]
    ensures ExtensionGroup(CleanExtensions(extensions))
            == "(" + "\\." + dll + "|" + "\\." + dll + "\\." + gz + ")"
  {
    var cleaned := CleanExtensions(extensions);
    assert cleaned == extensions;
    ReplaceOneCharAbsent(dll, '.', "\\.");
    ReplaceOneCharAbsent(gz, '.', "\\.");
    assert dll + "." + gz == dll + ("." + gz);
    ReplaceOneCharOverConcat(dll, "." + gz, '.', "\\.");
    assert ("." + gz)[..1] == "." && ("." + gz)[1..] == gz;
    var first, second := "\\." + dll, "\\." + dll + "\\." + gz;
    assert ExtensionAlternative(cleaned[0]) == first;
    assert Replace("." + gz, ".", "\\.") == "\\." + gz;
    assert ExtensionAlternative(cleaned[1]) == second;
    assert Alternatives(cleaned) == [first, second];
    assert Join([first, second], '|') == first + "|" + second;
    assert "(" + (first + "|" + second) + ")" == "(" + "\\." + dll + "|" + "\\." + dll + "\\." + gz + ")";
  }

  lemma ExampleTranslation(name: string, filename: string)
    requires name == "Dapplo" && filename == name + ".*"
    ensures TranslateWildcards(filename) == name + "\\." + AnyButSeparator
  {
    TranslateWildcardsOverConcat(name, ".*");
    TranslateOrdinary(name);
    assert TranslateWildcards(".*") == "\\." + AnyButSeparator;
  }

  /** Text without wildcards and dots stands for itself. */
  lemma {:induction false} TranslateOrdinary(s: string)
    requires forall i :: 0 <= i < |s| ==> s[i] !in ".?*"
    ensures TranslateWildcards(s) == s
  {
    if s != [] {
      TranslateOrdinary(s[1..]);
      assert s == [s[0]] + s[1..];
    }
  }

  /** Leading dots of an extension make no difference. */
  lemma LeadingDotsIgnored(e: string)
    ensures CleanExtension("." + e) == CleanExtension(e)
  {
    if StartsWith(e, ".") {
      assert ("." + e)[1..] == e;
    } else {
      assert ("." + e)[1..] == e;
    }
  }

  lemma {:induction false} TranslateWildcardsOverConcat(a: string, b: string)
    ensures TranslateWildcards(a + b) == TranslateWildcards(a) + TranslateWildcards(b)
  {
    if a != [] {
      assert (a + b)[0] == a[0];
      assert (a + b)[1..] == a[1..] + b;
      TranslateWildcardsOverConcat(a[1..], b);
      assert TranslateWildcards(a + b) == WildcardChar(a[0]) + (TranslateWildcards(a[1..]) + TranslateWildcards(b));
    } else {
      assert a + b == b;
    }
  }

  /** As written, without any extension the truncation meant for the last
      '|' removes the last character of the file name: for a file name that
      ends in an ordinary character, the pattern no longer requires it. */
  lemma NoExtensionLosesLastCharacter(filename: string, prefix: string)
    requires filename != [] && filename[|filename| - 1] !in ".?*"
    ensures FilenamePattern(filename, [], prefix)
            == Ok(prefix + TranslateWildcards(filename[..|filename| - 1]) + "$")
  {
    var n := |filename| - 1;
    assert filename == filename[..n] + [filename[n]];
    TranslateWildcardsOverConcat(filename[..n], [filename[n]]);
    assert TranslateWildcards([filename[n]]) == [filename[n]];
    FilenamePatternOfParts(filename, [], prefix);
    var head := prefix + TranslateWildcards(filename);
    assert head == (prefix + TranslateWildcards(filename[..n])) + [filename[n]];
  }

  /** "Foo" with no extension gives the pattern of "Fo". */
  lemma NoExtensionExample(filename: string)
    requires filename == "Foo"
    ensures FilenamePattern(filename, [], DefaultPrefix) == Ok(DefaultPrefix + "Fo$")
  {
    NoExtensionLosesLastCharacter(filename, DefaultPrefix);
    assert filename[..2] == "Fo";
    TranslateOrdinary("Fo");
    assert DefaultPrefix + "Fo" + "$" == DefaultPrefix + "Fo$";
  }

  /** The pattern the method evidently intends: the truncation applies only
      after an alternative has been appended, so the whole file name is
      always required, and nothing throws. */
  function IntendedPattern(filename: string, extensions: seq<string>, prefix: string): (r: string)
    ensures StartsWith(r, prefix + TranslateWildcards(filename))
    ensures EndsWith(r, "$")
  {
    var head := prefix + TranslateWildcards(filename);
    var r := head + ExtensionGroup(CleanExtensions(extensions)) + "$";
    assert r[..|head|] == head;
    r
  }

  /** The intended pattern is what the code builds whenever there is an
      extension, and without one it is the file name followed by "$". */
  lemma IntendedPatternAgrees(filename: string, extensions: seq<string>, prefix: string)
    ensures extensions != [] ==> FilenamePattern(filename, extensions, prefix) == Ok(IntendedPattern(filename, extensions, prefix))
    ensures extensions == [] ==> IntendedPattern(filename, extensions, prefix) == prefix + TranslateWildcards(filename) + "$"
  {
    FilenamePatternOfParts(filename, extensions, prefix);
    if extensions == [] {
      assert CleanExtensions(extensions) == [];
      assert ExtensionGroup([]) == [];
    }
  }

  /** orderby extension.Length: a stable sort, so extensions of the same
      length keep the order the caller gave them. */
  function OrderByLength(extensions: seq<string>): (sorted: seq<string>)
    ensures multiset(sorted) == multiset(extensions)
    ensures SortedByLength(sorted)
  {
    if extensions == [] then []
    else
      assert extensions == [extensions[0]] + extensions[1..];
      InsertByLengthSorted(extensions[0], OrderByLength(extensions[1..]));
      InsertByLength(extensions[0], OrderByLength(extensions[1..]))
  }

  predicate SortedByLength(s: seq<string>) {
    forall i, j :: 0 <= i < j < |s| ==> |s[i]| <= |s[j]|
  }

  /** e placed before the first element at least as long as e. */
  function InsertByLength(e: string, sorted: seq<string>): (r: seq<string>)
    ensures multiset(r) == multiset(sorted) + multiset{e}
  {
    if sorted == [] || |e| <= |sorted[0]| then [e] + sorted
    else
      assert sorted == [sorted[0]] + sorted[1..];
      [sorted[0]] + InsertByLength(e, sorted[1..])
  }

  predicate AllAtLeast(s: seq<string>, m: nat) {
    forall i :: 0 <= i < |s| ==> m <= |s[i]|
  }

  lemma {:induction false} InsertByLengthAtLeast(e: string, sorted: seq<string>, m: nat)
    requires m <= |e| && AllAtLeast(sorted, m)
    ensures AllAtLeast(InsertByLength(e, sorted), m)
  {
    if sorted != [] && |e| > |sorted[0]| {
      InsertByLengthAtLeast(e, sorted[1..], m);
    }
  }

  lemma {:induction false} InsertByLengthSorted(e: string, sorted: seq<string>)
    requires SortedByLength(sorted)
    ensures SortedByLength(InsertByLength(e, sorted))
  {
    if sorted != [] && |e| > |sorted[0]| {
      var rest := InsertByLength(e, sorted[1..]);
      InsertByLengthSorted(e, sorted[1..]);
      InsertByLengthAtLeast(e, sorted[1..], |sorted[0]|);
      var r := [sorted[0]] + rest;
      forall i, j | 0 <= i < j < |r|
        ensures |r[i]| <= |r[j]|
      {
        if i > 0 {
          assert r[i] == rest[i - 1] && r[j] == rest[j - 1];
        } else {
          assert r[j] == rest[j - 1];
        }
      }
    }
  }

  /** The extensions of one length, in their order. */
  function OfLength(s: seq<string>, n: nat): seq<string> {
    if s == [] then [] else (if |s[0]| == n then [s[0]] else []) + OfLength(s[1..], n)
  }

  lemma {:induction false} InsertByLengthOfLength(e: string, sorted: seq<string>, n: nat)
    ensures OfLength(InsertByLength(e, sorted), n) == (if |e| == n then [e] else []) + OfLength(sorted, n)
  {
    if sorted == [] || |e| <= |sorted[0]| {
      assert ([e] + sorted)[1..] == sorted;
    } else {
      var rest := InsertByLength(e, sorted[1..]);
      assert ([sorted[0]] + rest)[1..] == rest;
      InsertByLengthOfLength(e, sorted[1..], n);
      assert OfLength(sorted, n) == (if |sorted[0]| == n then [sorted[0]] else []) + OfLength(sorted[1..], n);
      if |e| == n {
        assert |sorted[0]| != n;
      }
    }
  }

  /** The sort is stable: for every length, the extensions of that length
      come out in the order they went in. */
  lemma {:induction false} OrderByLengthIsStable(extensions: seq<string>, n: nat)
    ensures OfLength(OrderByLength(extensions), n) == OfLength(extensions, n)
  {
    if extensions != [] {
      OrderByLengthIsStable(extensions[1..], n);
      InsertByLengthOfLength(extensions[0], OrderByLength(extensions[1..]), n);
    }
  }

  /** One round of the loop: an extension the path ends with removes every
      ".extension" from it, wherever it occurs. */
  function StripExtension(path: string, extension: string): (r: string)
    ensures |r| <= |path|
    ensures r != path ==> EndsWith(path, extension)
  {
    ReplaceByNothingShrinks(path, "." + extension);
    if EndsWith(path, extension) then Replace(path, "." + extension, "") else path
  }

  /** The rounds of the loop over the ordered extensions, each testing the
      path as the earlier rounds left it. */
  function StripInOrder(path: string, ordered: seq<string>): string
    decreases |ordered|
  {
    if ordered == [] then path else StripInOrder(StripExtension(path, ordered[0]), ordered[1..])
  }

  /** FileTools.RemoveExtensions(filepath, extensions). */
  method RemoveExtensions(filepath: string, extensions: Option<seq<string>>) returns (r: Result<string>)
    ensures extensions.None? ==> r == Err(ArgumentNull("extensions"))
    ensures extensions.Some? ==> r == Ok(StripInOrder(filepath, OrderByLength(extensions.value)))
    ensures extensions.Some? ==> |r.value| <= |filepath|
    ensures extensions.Some? && (forall e :: e in extensions.value ==> !EndsWith(filepath, e)) ==> r == Ok(filepath)
  {
    if extensions.None? {
      return Err(ArgumentNull("extensions"));
    }
    var ordered := OrderByLength(extensions.value);
    var path := filepath;
    for i := 0 to |ordered|
      invariant StripInOrder(path, ordered[i..]) == StripInOrder(filepath, ordered)
    {
      assert ordered[i..][1..] == ordered[i + 1..];
      if EndsWith(path, ordered[i]) {
        path := Replace(path, "." + ordered[i], "");
      }
    }
    assert ordered[|ordered|..] == [];
    StripInOrderShrinks(filepath, ordered);
    if forall e :: e in extensions.value ==> !EndsWith(filepath, e) {
      forall e | e in ordered
        ensures !EndsWith(filepath, e)
      {
        assert e in multiset(ordered);
      }
      StripInOrderWithoutSuffix(filepath, ordered);
    }
    r := Ok(path);
  }

  /** Removing extensions never makes the path longer. */
  lemma {:induction false} StripInOrderShrinks(path: string, ordered: seq<string>)
    ensures |StripInOrder(path, ordered)| <= |path|
    decreases |ordered|
  {
    if ordered != [] {
      if EndsWith(path, ordered[0]) {
        ReplaceByNothingShrinks(path, "." + ordered[0]);
      }
      StripInOrderShrinks(StripExtension(path, ordered[0]), ordered[1..]);
    }
  }

  /** A path that ends with none of the extensions comes back unchanged. */
  lemma {:induction false} StripInOrderWithoutSuffix(path: string, ordered: seq<string>)
    requires forall e :: e in ordered ==> !EndsWith(path, e)
    ensures StripInOrder(path, ordered) == path
    decreases |ordered|
  {
    if ordered != [] {
      assert ordered[0] in ordered;
      StripInOrderWithoutSuffix(path, ordered[1..]);
    }
  }

  /** The empty extension ends every path, so it removes every dot. */
  lemma EmptyExtensionRemovesEveryDot(path: string)
    ensures '.' !in StripExtension(path, "")
  {
    assert EndsWith(path, "");
    assert "." + "" == ['.'];
    ReplaceOneCharByNothingRemovesIt(path, '.');
  }

  /** String.Replace removes every ".extension", not only the suffix that
      passed the EndsWith test: "lib.dll.backup.dll" loses both ".dll". */
  lemma InnerOccurrencesRemoved(a: string, b: string, extension: string)
    requires '.' !in a && '.' !in b && '.' !in extension
    requires !StartsWith(b, extension)
    ensures StripExtension(a + "." + extension + "." + b + "." + extension, extension) == a + "." + b
  {
    EveryOccurrenceReplaced(a, b, extension);
    assert a + "." + extension + "." + b + "." + extension
           == a + (("." + extension) + (("." + b) + ("." + extension)));
    var path := a + "." + extension + "." + b + "." + extension;
    assert path[|path| - |extension|..] == extension;
  }

  lemma EveryOccurrenceReplaced(a: string, b: string, extension: string)
    requires '.' !in a && '.' !in b && '.' !in extension
    requires !StartsWith(b, extension)
    ensures Replace(a + (("." + extension) + (("." + b) + ("." + extension))), "." + extension, "")
            == a + "." + b
  {
    ReplaceSkipsFree(a, ("." + extension) + (("." + b) + ("." + extension)), "." + extension, "");
    ReplaceAtMatch("." + extension, ("." + b) + ("." + extension), "");
    DotNameThenPattern(b, extension);
  }

  /** After a dot-free name that does not start with the extension, the
      ".extension" that follows is the only occurrence. */
  lemma DotNameThenPattern(b: string, extension: string)
    requires '.' !in b && '.' !in extension && !StartsWith(b, extension)
    ensures Replace(("." + b) + ("." + extension), "." + extension, "") == "." + b
  {
    var pat := "." + extension;
    var tail := ("." + b) + pat;
    NoMatchAtDot(b, extension);
    assert tail[1..] == b + pat;
    assert Replace(tail, pat, "") == ['.'] + Replace(b + pat, pat, "");
    ReplaceSkipsFree(b, pat, pat, "");
    ReplaceWhole(pat, "");
  }

  lemma NoMatchAtDot(b: string, extension: string)
    requires '.' !in b && '.' !in extension && !StartsWith(b, extension)
    ensures (("." + b) + ("." + extension))[..|extension| + 1] != "." + extension
  {
    var s := ("." + b) + ("." + extension);
    if |b| >= |extension| {
      assert s[..|extension| + 1][1..] == b[..|extension|];
    } else {
      assert s[|b| + 1] == '.';
      assert ("." + extension)[|b| + 1] == extension[|b|];
    }
  }

  /** A trailing ".extension" after a dot-free name is removed. */
  lemma TrailingExtensionRemoved(a: string, extension: string)
    requires '.' !in a && '.' !in extension
    ensures StripExtension(a + "." + extension, extension) == a
  {
    var pat := "." + extension;
    var path := a + "." + extension;
    assert path == a + pat;
    assert path[|path| - |extension|..] == extension;
    ReplaceSkipsFree(a, pat, pat, "");
    ReplaceWhole(pat, "");
  }

  /** Of two extensions of one length, only the one that ends the path is
      removed. */
  lemma SecondOfTwoRemoved(a: string, x: string, y: string)
    requires '.' !in a && '.' !in x && '.' !in y
    requires |x| == |y| && x != y
    ensures StripExtension(a + "." + x + "." + y, y) == a + "." + x
  {
    SecondOfTwoReplaced(a, x, y);
    assert a + "." + x + "." + y == a + (("." + x) + ("." + y));
    var path := a + "." + x + "." + y;
    assert path[|path| - |y|..] == y;
  }

  lemma SecondOfTwoReplaced(a: string, x: string, y: string)
    requires '.' !in a && '.' !in x && '.' !in y
    requires |x| == |y| && x != y
    ensures Replace(a + (("." + x) + ("." + y)), "." + y, "") == a + "." + x
  {
    ReplaceSkipsFree(a, ("." + x) + ("." + y), "." + y, "");
    assert x[..|y|] == x;
    DotNameThenPattern(x, y);
  }

  /** The order of extensions of one length is kept, and it matters: each
      EndsWith sees what the earlier rounds left, so "a.x.y" with [x, y]
      loses only ".y", and with [y, x] loses both. */
  lemma EqualLengthOrderMatters(a: string, x: string, y: string)
    requires '.' !in a && '.' !in x && '.' !in y
    requires |x| == |y| && x != y
    ensures StripInOrder(a + "." + x + "." + y, OrderByLength([x, y])) == a + "." + x
    ensures StripInOrder(a + "." + x + "." + y, OrderByLength([y, x])) == a
  {
    var path := a + "." + x + "." + y;
    OrderOfTwoKept(x, y);
    OrderOfTwoKept(y, x);
    StripInOrderOfTwo(path, x, y);
    StripInOrderOfTwo(path, y, x);
    assert path[|path| - |x|..] == y;
    SecondOfTwoRemoved(a, x, y);
    TrailingExtensionRemoved(a, x);
  }

  lemma OrderOfTwoKept(x: string, y: string)
    requires |x| == |y|
    ensures OrderByLength([x, y]) == [x, y]
  {
    assert [x, y][1..] == [y];
    assert [y][1..] == [];
  }

  lemma StripInOrderOfTwo(path: string, x: string, y: string)
    ensures StripInOrder(path, [x, y]) == StripExtension(StripExtension(path, x), y)
  {
    var q := StripExtension(path, x);
    assert [x, y][1..] == [y];
    assert StripInOrder(path, [x, y]) == StripInOrder(q, [y]);
    assert [y][1..] == [];
    assert StripInOrder(q, [y]) == StripInOrder(StripExtension(q, y), []);
  }
}

=== FILE: StringExtensions.dfy ===
/** The string helpers of Dapplo.Utils.Extensions.StringExtensions:
    RemoveNonAlphaDigitsToLower, RemoveStartEndQuotes, SplitCsv (the branch
    built without TextFieldParser) and SplitDictionary. */
module StringExtensions {
  import opened Wrappers
  import opened Text

  /** The characters CleanupRegex keeps: [a-z0-9]. */
  predicate IsLowerAlphaDigit(c: char) {
    'a' <= c <= 'z' || '0' <= c <= '9'
  }

  /** How many characters one match of [^a-z0-9]+ at the start of s consumes
      (0 when s starts with a kept character). */
  function RunLength(s: string): (n: nat)
    ensures n <= |s|
    ensures forall i :: 0 <= i < n ==> !IsLowerAlphaDigit(s[i])
    ensures n < |s| ==> IsLowerAlphaDigit(s[n])
  {
    if s == [] || IsLowerAlphaDigit(s[0]) then 0 else 1 + RunLength(s[1..])
  }

  /** CleanupRegex.Replace(s, ""): the regex engine walks s from the left and
      replaces each maximal run of characters outside [a-z0-9] by nothing. */
  function CleanupReplace(s: string): (r: string)
    ensures forall i :: 0 <= i < |r| ==> IsLowerAlphaDigit(r[i])
    ensures |r| <= |s|
    decreases |s|
  {
    if s == [] then []
    else if IsLowerAlphaDigit(s[0]) then [s[0]] + CleanupReplace(s[1..])
    else CleanupReplace(s[RunLength(s)..])
  }

  /** Reference definition: the characters of s in [a-z0-9], in order. */
  function KeepLowerAlphaDigits(s: string): string {
    if s == [] then []
    else (if IsLowerAlphaDigit(s[0]) then [s[0]] else []) + KeepLowerAlphaDigits(s[1..])
  }

  /** Dropping a prefix of removed characters does not change what is kept. */
  lemma {:induction false} KeepSkipsRemoved(s: string, n: nat)
    requires n <= |s|
    requires forall i :: 0 <= i < n ==> !IsLowerAlphaDigit(s[i])
    ensures KeepLowerAlphaDigits(s) == KeepLowerAlphaDigits(s[n..])
  {
    if n > 0 {
      assert s[1..][n - 1..] == s[n..];
      KeepSkipsRemoved(s[1..], n - 1);
    }
  }

  /** Deleting maximal runs, as the regex does, is the same as deleting every
      character outside [a-z0-9] one at a time. */
  lemma {:induction false} CleanupReplaceKeepsExactlyTheClass(s: string)
    ensures CleanupReplace(s) == KeepLowerAlphaDigits(s)
    decreases |s|
  {
    if s != [] {
      if IsLowerAlphaDigit(s[0]) {
        CleanupReplaceKeepsExactlyTheClass(s[1..]);
      } else {
        var n := RunLength(s);
        KeepSkipsRemoved(s, n);
        CleanupReplaceKeepsExactlyTheClass(s[n..]);
      }
    }
  }

  /** A character is kept exactly when it is in [a-z0-9] and occurs in s. */
  lemma {:induction false} KeepMembership(s: string, c: char)
    ensures c in KeepLowerAlphaDigits(s) <==> IsLowerAlphaDigit(c) && c in s
  {
    if s != [] {
      KeepMembership(s[1..], c);
      assert s == [s[0]] + s[1..];
    }
  }

  /** A string made only of kept characters is kept whole. */
  lemma {:induction false} KeepAllKept(s: string)
    requires forall i :: 0 <= i < |s| ==> IsLowerAlphaDigit(s[i])
    ensures KeepLowerAlphaDigits(s) == s
  {
    if s != [] {
      KeepAllKept(s[1..]);
      assert [s[0]] + s[1..] == s;
    }
  }

  /** value.RemoveNonAlphaDigitsToLower(): the lower-cased value with every
      character outside [a-z0-9] removed. */
  function RemoveNonAlphaDigitsToLower(value: string): (r: string)
    ensures forall i :: 0 <= i < |r| ==> IsLowerAlphaDigit(r[i])
    ensures |r| <= |value|
  {
    CleanupReplace(ToLowerInvariant(value))
  }

  /** The result keeps, in order, exactly the characters of the lower-cased
      input that are in [a-z0-9]. */
  lemma RemoveNonAlphaDigitsToLowerKeeps(value: string, c: char)
    ensures RemoveNonAlphaDigitsToLower(value) == KeepLowerAlphaDigits(ToLowerInvariant(value))
    ensures c in RemoveNonAlphaDigitsToLower(value) <==> IsLowerAlphaDigit(c) && c in ToLowerInvariant(value)
  {
    CleanupReplaceKeepsExactlyTheClass(ToLowerInvariant(value));
    KeepMembership(ToLowerInvariant(value), c);
  }

  /** Normalising twice is normalising once. */
  lemma RemoveNonAlphaDigitsToLowerIdempotent(value: string)
    ensures RemoveNonAlphaDigitsToLower(RemoveNonAlphaDigitsToLower(value)) == RemoveNonAlphaDigitsToLower(value)
  {
    var r := RemoveNonAlphaDigitsToLower(value);
    assert ToLowerInvariant(r) == r;
    CleanupReplaceKeepsExactlyTheClass(r);
    KeepAllKept(r);
  }

  /** Starts and ends with a double quote, possibly the same one. */
  predicate HasStartEndQuotes(s: string) {
    StartsWith(s, "\"") && EndsWith(s, "\"")
  }

  /** input.RemoveStartEndQuotes(): null stays null, a string that starts and
      ends with a double quote loses both, any other string is returned as it
      is. A lone double quote makes Substring(1, -1) throw. */
  function RemoveStartEndQuotes(input: Option<string>): (r: Result<Option<string>>)
    ensures input.None? ==> r == Ok(None)
    ensures r.Err? <==> input == Some("\"")
    ensures r.Err? ==> r.error == ArgumentOutOfRange("length")
    ensures input.Some? && |input.value| >= 2 && HasStartEndQuotes(input.value) ==>
              r.Ok? && r.value.Some? && "\"" + r.value.value + "\"" == input.value
    ensures input.Some? && !HasStartEndQuotes(input.value) ==> r == Ok(input)
  {
    match input
    case None => Ok(None)
    case Some(s) =>
      if HasStartEndQuotes(s) then
        if |s| - 2 < 0 then Err(ArgumentOutOfRange("length")) else Ok(Some(s[1..1 + (|s| - 2)]))
      else Ok(Some(s))
  }

  /** Quoting a string and removing the quotes gives the string back. */
  lemma QuotesRoundTrip(t: string)
    ensures RemoveStartEndQuotes(Some("\"" + t + "\"")) == Ok(Some(t))
  {
    var s := "\"" + t + "\"";
    assert s[..1] == "\"" && s[|s| - 1..] == "\"";
    assert s[1..1 + (|s| - 2)] == t;
  }

  lemma RemoveStartEndQuotesExample()
    ensures RemoveStartEndQuotes(Some("\"blub\"")) == Ok(Some("blub"))
    ensures RemoveStartEndQuotes(Some("blub")) == Ok(Some("blub"))
  {
    QuotesRoundTrip("blub");
    assert "\"" + "blub" + "\"" == "\"blub\"";
    assert "blub"[..1] == "b";
  }

  /** input.SplitCsv(delimiter, trimWhiteSpace): the pieces between the
      delimiters, each trimmed; trimWhiteSpace is not consulted. */
  function SplitCsv(input: string, delimiter: char, trimWhiteSpace: bool): (fields: seq<string>)
    ensures |fields| == Count(input, delimiter) + 1
    ensures forall i :: 0 <= i < |fields| ==> delimiter !in fields[i]
    ensures forall i :: 0 <= i < |fields| ==>
              fields[i] == [] || (!IsWhiteSpace(fields[i][0]) && !IsWhiteSpace(fields[i][|fields[i]| - 1]))
  {
    var parts := Split(input, delimiter);
    var fields := seq(|parts|, i requires 0 <= i < |parts| => Trim(parts[i]));
    assert forall i :: 0 <= i < |fields| ==> delimiter !in fields[i] by {
      forall i | 0 <= i < |fields| ensures delimiter !in fields[i] {
        var k := LeadingWhiteSpace(parts[i]);
        assert fields[i] == parts[i][k..k + |fields[i]|];
      }
    }
    fields
  }

  /** Pieces that contain no delimiter come back out of the line they were
      joined into, each trimmed; pieces without surrounding white space come
      back as they were. */
  lemma SplitCsvJoined(pieces: seq<string>, delimiter: char, trimWhiteSpace: bool)
    requires |pieces| >= 1
    requires forall i :: 0 <= i < |pieces| ==> delimiter !in pieces[i]
    ensures SplitCsv(Join(pieces, delimiter), delimiter, trimWhiteSpace)
            == seq(|pieces|, i requires 0 <= i < |pieces| => Trim(pieces[i]))
    ensures (forall i :: 0 <= i < |pieces| ==> Trim(pieces[i]) == pieces[i]) ==>
              SplitCsv(Join(pieces, delimiter), delimiter, trimWhiteSpace) == pieces
  {
    SplitJoin(pieces, delimiter);
  }

  /** A padded line: " a , b " gives the two trimmed fields "a" and "b". */
  lemma SplitCsvExample()
    ensures SplitCsv(" a , b ", ',', true) == ["a", "b"]
  {
    PaddedLine();
    SplitCsvJoined([" a ", " b "], ',', true);
    TrimPadded('a');
    TrimPadded('b');
  }

  /** " a , b " is the join of " a " and " b ". */
  lemma PaddedLine()
    ensures Join([" a ", " b "], ',') == " a , b "
  {
    assert Join([" a ", " b "][1..], ',') == " b ";
  }

  /** A character between two blanks is trimmed to itself. */
  lemma TrimPadded(c: char)
    requires !IsWhiteSpace(c)
    ensures Trim([' ', c, ' ']) == [c]
  {
    var s := [' ', c, ' '];
    assert LeadingWhiteSpace(s) == 1;
  }

  /** PairsOf keeps the order of the fields: the pairs of a concatenation are
      the pairs of its first part followed by those of its second. */
  lemma {:induction false} PairsOfConcat(a: seq<string>, b: seq<string>)
    ensures PairsOf(a + b) == PairsOf(a) + PairsOf(b)
  {
    if a == [] {
      assert a + b == b;
    } else {
      assert (a + b)[0] == a[0];
      assert (a + b)[1..] == a[1..] + b;
      PairsOfConcat(a[1..], b);
    }
  }

  /** The name=value pairs among fields: those whose split on '=' has exactly
      two parts, in order. */
  function PairsOf(fields: seq<string>): (pairs: seq<(string, string)>)
    ensures |pairs| <= |fields|
    ensures forall i :: 0 <= i < |pairs| ==> '=' !in pairs[i].0 && '=' !in pairs[i].1
    ensures forall i :: 0 <= i < |pairs| ==>
              exists j :: 0 <= j < |fields| && fields[j] == pairs[i].0 + "=" + pairs[i].1
    ensures forall j :: 0 <= j < |fields| && Count(fields[j], '=') == 1 ==>
              (Split(fields[j], '=')[0], Split(fields[j], '=')[1]) in pairs
  {
    if fields == [] then []
    else
      var parts := Split(fields[0], '=');
      var rest := PairsOf(fields[1..]);
      JoinSplit(fields[0], '=');
      assert |parts| == 2 ==> parts[1..] == [parts[1]];
      assert forall j :: 1 <= j < |fields| ==> fields[j] == fields[1..][j - 1];
      (if |parts| == 2 then [(parts[0], parts[1])] else []) + rest
  }

  /** No earlier pair has a name equal to that of pair i, ignoring case. */
  predicate IsFirstName(pairs: seq<(string, string)>, i: int)
    requires 0 <= i < |pairs|
  {
    forall j :: 0 <= j < i ==> !EqualsIgnoreCase(pairs[j].0, pairs[i].0)
  }

  /** Every pair has a first pair with the same name ignoring case at or
      before it. */
  lemma {:induction false} FirstNameExists(pairs: seq<(string, string)>, j: int) returns (i: int)
    requires 0 <= j < |pairs|
    ensures 0 <= i <= j && IsFirstName(pairs, i) && EqualsIgnoreCase(pairs[i].0, pairs[j].0)
  {
    if IsFirstName(pairs, j) {
      i := j;
    } else {
      var j' :| 0 <= j' < j && EqualsIgnoreCase(pairs[j'].0, pairs[j].0);
      i := FirstNameExists(pairs, j');
    }
  }

  /** Whether m has a key equal to name, ignoring case. */
  predicate HasNameIgnoringCase(m: map<string, string>, name: string) {
    exists k :: k in m && EqualsIgnoreCase(k, name)
  }

  /** ToLookup(name, OrdinalIgnoreCase).ToDictionary(group key, first value):
      walking the pairs in order, a pair is entered only when no name equal
      to its own, ignoring case, is there yet. */
  function FirstWins(pairs: seq<(string, string)>): (d: map<string, string>)
    ensures forall k, k' :: k in d && k' in d && k != k' ==> !EqualsIgnoreCase(k, k')
    ensures forall k :: k in d ==> exists i :: 0 <= i < |pairs| && pairs[i] == (k, d[k])
  {
    if pairs == [] then map[]
    else
      var d := FirstWins(pairs[..|pairs| - 1]);
      var (name, value) := pairs[|pairs| - 1];
      if HasNameIgnoringCase(d, name) then d else d[name := value]
  }

  /** What a dictionary built from pairs holds: names distinct ignoring case,
      each first pair present with its value, and nothing else. */
  ghost predicate HoldsFirstPairs(d: map<string, string>, pairs: seq<(string, string)>) {
    && (forall k, k' :: k in d && k' in d && k != k' ==> !EqualsIgnoreCase(k, k'))
    && (forall i :: 0 <= i < |pairs| && IsFirstName(pairs, i) ==> pairs[i].0 in d && d[pairs[i].0] == pairs[i].1)
    && (forall k :: k in d ==> exists i :: 0 <= i < |pairs| && IsFirstName(pairs, i) && pairs[i].0 == k)
  }

  /** A pair is first exactly when no name already in the dictionary of the
      pairs before it equals its own, ignoring case. */
  lemma LastIsFirstName(pairs: seq<(string, string)>, d: map<string, string>)
    requires |pairs| > 0
    requires HoldsFirstPairs(d, pairs[..|pairs| - 1])
    ensures IsFirstName(pairs, |pairs| - 1) <==> !HasNameIgnoringCase(d, pairs[|pairs| - 1].0)
  {
    var n := |pairs| - 1;
    var prefix := pairs[..n];
    var name := pairs[n].0;
    if !IsFirstName(pairs, n) {
      var j :| 0 <= j < n && EqualsIgnoreCase(pairs[j].0, name);
      var i := FirstNameExists(prefix, j);
      assert prefix[i].0 in d && EqualsIgnoreCase(prefix[i].0, name);
    }
    if HasNameIgnoringCase(d, name) {
      var k :| k in d && EqualsIgnoreCase(k, name);
      var i :| 0 <= i < n && IsFirstName(prefix, i) && prefix[i].0 == k;
      assert EqualsIgnoreCase(pairs[i].0, pairs[n].0);
    }
  }

  /** The first pairs of a sequence are its first pairs before the last
      one, plus the last one when it is first. */
  lemma FirstNameOfPrefix(pairs: seq<(string, string)>, i: int)
    requires 0 <= i < |pairs| - 1
    ensures IsFirstName(pairs[..|pairs| - 1], i) <==> IsFirstName(pairs, i)
  {
    var prefix := pairs[..|pairs| - 1];
    assert forall j :: 0 <= j <= i ==> prefix[j] == pairs[j];
  }

  /** A last pair whose name is taken leaves the dictionary as it is. */
  lemma TakenNameKeepsDictionary(pairs: seq<(string, string)>, d: map<string, string>)
    requires |pairs| > 0
    requires HoldsFirstPairs(d, pairs[..|pairs| - 1])
    requires HasNameIgnoringCase(d, pairs[|pairs| - 1].0)
    ensures HoldsFirstPairs(d, pairs)
  {
    var n := |pairs| - 1;
    var prefix := pairs[..n];
    LastIsFirstName(pairs, d);
    forall i | 0 <= i < |pairs| && IsFirstName(pairs, i) ensures pairs[i].0 in d && d[pairs[i].0] == pairs[i].1 {
      FirstNameOfPrefix(pairs, i);
      assert prefix[i] == pairs[i];
    }
    forall k | k in d ensures exists i :: 0 <= i < |pairs| && IsFirstName(pairs, i) && pairs[i].0 == k {
      var i :| 0 <= i < n && IsFirstName(prefix, i) && prefix[i].0 == k;
      FirstNameOfPrefix(pairs, i);
      assert IsFirstName(pairs, i) && pairs[i].0 == k;
    }
  }

  /** A last pair whose name is new is entered with its value. */
  lemma NewNameEntersDictionary(pairs: seq<(string, string)>, d: map<string, string>)
    requires |pairs| > 0
    requires HoldsFirstPairs(d, pairs[..|pairs| - 1])
    requires !HasNameIgnoringCase(d, pairs[|pairs| - 1].0)
    ensures HoldsFirstPairs(d[pairs[|pairs| - 1].0 := pairs[|pairs| - 1].1], pairs)
  {
    var n := |pairs| - 1;
    var prefix := pairs[..n];
    var name := pairs[n].0;
    var r := d[name := pairs[n].1];
    LastIsFirstName(pairs, d);
    forall k, k' | k in r && k' in r && k != k' ensures !EqualsIgnoreCase(k, k') {
      if k == name {
        assert !EqualsIgnoreCase(k', name);
      } else if k' == name {
        assert !EqualsIgnoreCase(k, name);
      }
    }
    forall i | 0 <= i < |pairs| && IsFirstName(pairs, i) ensures pairs[i].0 in r && r[pairs[i].0] == pairs[i].1 {
      if i < n {
        FirstNameOfPrefix(pairs, i);
        assert prefix[i] == pairs[i];
        assert pairs[i].0 in d;
      }
    }
    forall k | k in r ensures exists i :: 0 <= i < |pairs| && IsFirstName(pairs, i) && pairs[i].0 == k {
      if k == name {
        assert IsFirstName(pairs, n) && pairs[n].0 == k;
      } else {
        var i :| 0 <= i < n && IsFirstName(prefix, i) && prefix[i].0 == k;
        FirstNameOfPrefix(pairs, i);
        assert IsFirstName(pairs, i) && pairs[i].0 == k;
      }
    }
  }

  /** The dictionary FirstWins builds holds exactly the first pair of each
      name, ignoring case. */
  lemma {:induction false} FirstWinsHoldsFirstPairs(pairs: seq<(string, string)>)
    ensures HoldsFirstPairs(FirstWins(pairs), pairs)
  {
    if pairs != [] {
      var prefix := pairs[..|pairs| - 1];
      FirstWinsHoldsFirstPairs(prefix);
      var d := FirstWins(prefix);
      if HasNameIgnoringCase(d, pairs[|pairs| - 1].0) {
        TakenNameKeepsDictionary(pairs, d);
      } else {
        NewNameEntersDictionary(pairs, d);
      }
    }
  }

  /** input.SplitDictionary(): the comma-separated name=value pairs of input,
      one entry per name ignoring case, the first pair of each name winning. */
  function SplitDictionary(input: string): (d: map<string, string>)
    ensures forall k, k' :: k in d && k' in d && k != k' ==> !EqualsIgnoreCase(k, k')
    ensures var pairs := PairsOf(SplitCsv(input, ',', true));
            forall i :: 0 <= i < |pairs| && IsFirstName(pairs, i) ==> pairs[i].0 in d && d[pairs[i].0] == pairs[i].1
    ensures var pairs := PairsOf(SplitCsv(input, ',', true));
            forall k :: k in d ==> exists i :: 0 <= i < |pairs| && IsFirstName(pairs, i) && pairs[i].0 == k
  {
    FirstWinsHoldsFirstPairs(PairsOf(SplitCsv(input, ',', true)));
    FirstWins(PairsOf(SplitCsv(input, ',', true)))
  }

  /** The pair in the first field of a line always makes it into the
      dictionary, whatever follows. */
  lemma SplitDictionaryFirstFieldWins(name: string, value: string, rest: string)
    requires ',' !in name && ',' !in value && '=' !in name && '=' !in value
    requires Trim(name + "=" + value) == name + "=" + value
    ensures var d := SplitDictionary(name + "=" + value + "," + rest);
            name in d && d[name] == value
  {
    var field := name + "=" + value;
    var input := field + "," + rest;
    assert ',' !in field;
    assert input == field + ("," + rest);
    SplitPrefix(field, "," + rest, ',');
    assert field + [] == field;
    var fields := SplitCsv(input, ',', true);
    assert fields[0] == field;
    FirstFieldPair(fields, name, value);
    assert IsFirstName(PairsOf(fields), 0);
  }

  /** A first field "name=value" gives the first pair. */
  lemma FirstFieldPair(fields: seq<string>, name: string, value: string)
    requires fields != [] && fields[0] == name + "=" + value
    requires '=' !in name && '=' !in value
    ensures PairsOf(fields) != [] && PairsOf(fields)[0] == (name, value)
  {
    assert Join([name, value], '=') == fields[0];
    SplitJoin([name, value], '=');
  }

  /** A later pair whose name differs from an earlier one only in case is
      dropped. */
  lemma SplitDictionaryDropsLaterCaseVariant(name: string, value: string, other: string, rest: string)
    requires ',' !in name && ',' !in value && '=' !in name && '=' !in value
    requires Trim(name + "=" + value) == name + "=" + value
    requires EqualsIgnoreCase(name, other) && name != other
    ensures other !in SplitDictionary(name + "=" + value + "," + rest)
  {
    SplitDictionaryFirstFieldWins(name, value, rest);
  }

  lemma SplitDictionaryExample(input: string)
    requires input == "value1=1,value2=2"
    ensures var d := SplitDictionary(input); "value1" in d && d["value1"] == "1"
  {
    var field := "value1" + "=" + "1";
    assert field == "value1=1";
    assert LeadingWhiteSpace(field) == 0;
    assert TrailingWhiteSpace(field) == 0;
    assert input == field + "," + "value2=2";
    SplitDictionaryFirstFieldWins("value1", "1", "value2=2");
  }

  lemma RemoveNonAlphaDigitsToLowerExample(value: string)
    requires value == "__AbC_123!"
    ensures RemoveNonAlphaDigitsToLower(value) == "abc123"
  {
    var lowered := ToLowerInvariant(value);
    assert lowered == "__abc_123!";
    CleanupReplaceKeepsExactlyTheClass(lowered);
    KeptOfExample();
  }

  lemma KeptOfExample()
    ensures KeepLowerAlphaDigits("__abc_123!") == "abc123"
  {
  }
}

=== FILE: Text.dfy ===
/** The .NET string primitives that the modelled code calls: ordinal prefix
    and suffix tests, String.Replace, String.Split(char), String.Trim(),
    ToLowerInvariant and StringComparer.OrdinalIgnoreCase. Case mapping is
    modelled for the ASCII letters only. */
module Text {

  /** char.ToUpperInvariant, for the ASCII letters. */
  function UpperInvariant(c: char): char {
    if 'a' <= c <= 'z' then (c as int - 32) as char else c
  }

  /** char.ToLowerInvariant, for the ASCII letters. */
  function LowerInvariant(c: char): char {
    if 'A' <= c <= 'Z' then (c as int + 32) as char else c
  }

  /** string.ToLowerInvariant() */
  function ToLowerInvariant(s: string): (r: string)
    ensures |r| == |s|
    ensures forall i :: 0 <= i < |r| ==> !('A' <= r[i] <= 'Z')
    ensures forall i :: 0 <= i < |s| && !('A' <= s[i] <= 'Z') ==> r[i] == s[i]
    ensures forall i :: 0 <= i < |s| ==> UpperInvariant(r[i]) == UpperInvariant(s[i])
  {
    seq(|s|, i requires 0 <= i < |s| => LowerInvariant(s[i]))
  }

  /** What StringComparer.OrdinalIgnoreCase compares: the string with every
      character upper-cased. */
  function CaseKey(s: string): (r: string)
    ensures |r| == |s|
    ensures forall i :: 0 <= i < |r| ==> !('a' <= r[i] <= 'z')
    ensures forall i :: 0 <= i < |s| && !('a' <= s[i] <= 'z') ==> r[i] == s[i]
  {
    seq(|s|, i requires 0 <= i < |s| => UpperInvariant(s[i]))
  }

  /** StringComparer.OrdinalIgnoreCase.Equals */
  predicate EqualsIgnoreCase(a: string, b: string)
    ensures a == b ==> EqualsIgnoreCase(a, b)
    ensures EqualsIgnoreCase(a, b) ==> |a| == |b|
  {
    CaseKey(a) == CaseKey(b)
  }

  /** string.StartsWith, compared ordinally. */
  predicate StartsWith(s: string, prefix: string) {
    |prefix| <= |s| && s[..|prefix|] == prefix
  }

  /** string.EndsWith, compared ordinally. */
  predicate EndsWith(s: string, suffix: string) {
    |suffix| <= |s| && s[|s| - |suffix|..] == suffix
  }

  /** string.Replace(string, string): scanning from the left, every
      occurrence of pat that does not overlap an earlier one is replaced by
      rep; the replacement text is not scanned again. */
  function Replace(s: string, pat: string, rep: string): string
    requires pat != []
    decreases |s|
  {
    if |s| < |pat| then s
    else if s[..|pat|] == pat then rep + Replace(s[|pat|..], pat, rep)
    else [s[0]] + Replace(s[1..], pat, rep)
  }

  /** string.Replace(char, char) */
  function ReplaceChar(s: string, c: char, d: char): (r: string)
    ensures |r| == |s|
    ensures c != d ==> c !in r
    ensures forall i :: 0 <= i < |s| && s[i] != c ==> r[i] == s[i]
    ensures forall i :: 0 <= i < |s| && s[i] == c ==> r[i] == d
  {
    seq(|s|, i requires 0 <= i < |s| => if s[i] == c then d else s[i])
  }

  /** Deleting every occurrence of a pattern never makes a string longer. */
  lemma {:induction false} ReplaceByNothingShrinks(s: string, pat: string)
    requires pat != []
    ensures |Replace(s, pat, "")| <= |s|
    decreases |s|
  {
    if |s| >= |pat| {
      if s[..|pat|] == pat {
        ReplaceByNothingShrinks(s[|pat|..], pat);
      } else {
        ReplaceByNothingShrinks(s[1..], pat);
      }
    }
  }

  /** Replacing a single character works character by character, so it
      distributes over concatenation. */
  lemma {:induction false} ReplaceOneCharOverConcat(a: string, b: string, c: char, rep: string)
    ensures Replace(a + b, [c], rep) == Replace(a, [c], rep) + Replace(b, [c], rep)
  {
    if a == [] {
      assert a + b == b;
    } else {
      assert (a + b)[..1] == a[..1];
      assert (a + b)[1..] == a[1..] + b;
      ReplaceOneCharOverConcat(a[1..], b, c, rep);
    }
  }

  /** An occurrence at the start is replaced, and the scan resumes after it. */
  lemma ReplaceAtMatch(pat: string, b: string, rep: string)
    requires pat != []
    ensures Replace(pat + b, pat, rep) == rep + Replace(b, pat, rep)
  {
    assert (pat + b)[..|pat|] == pat;
    assert (pat + b)[|pat|..] == b;
  }

  /** The pattern alone becomes the replacement. */
  lemma ReplaceWhole(pat: string, rep: string)
    requires pat != []
    ensures Replace(pat, pat, rep) == rep
  {
    assert pat + [] == pat;
    ReplaceAtMatch(pat, [], rep);
  }

  /** A prefix that does not contain the first character of the pattern
      cannot hold or start an occurrence, so it is kept. */
  lemma {:induction false} ReplaceSkipsFree(a: string, b: string, pat: string, rep: string)
    requires pat != [] && pat[0] !in a
    ensures Replace(a + b, pat, rep) == a + Replace(b, pat, rep)
  {
    if a == [] {
      assert a + b == b;
    } else if |a + b| < |pat| {
      assert Replace(b, pat, rep) == b;
    } else {
      assert (a + b)[..|pat|][0] == a[0];
      assert (a + b)[1..] == a[1..] + b;
      ReplaceSkipsFree(a[1..], b, pat, rep);
    }
  }

  /** A string without the character is left as it is. */
  lemma {:induction false} ReplaceOneCharAbsent(s: string, c: char, rep: string)
    requires c !in s
    ensures Replace(s, [c], rep) == s
  {
    if s != [] {
      assert s[..1] == [s[0]];
      ReplaceOneCharAbsent(s[1..], c, rep);
    }
  }

  lemma ReplaceCharOverConcat(a: string, b: string, c: char, d: char)
    ensures ReplaceChar(a + b, c, d) == ReplaceChar(a, c, d) + ReplaceChar(b, c, d)
  {
  }

  /** Deleting a single character removes every occurrence of it. */
  lemma {:induction false} ReplaceOneCharByNothingRemovesIt(s: string, c: char)
    ensures c !in Replace(s, [c], "")
  {
    if s != [] {
      assert s[..1] == [s[0]];
      ReplaceOneCharByNothingRemovesIt(s[1..], c);
    }
  }

  /** Number of occurrences of d in s. */
  function Count(s: string, d: char): nat {
    if s == [] then 0 else (if s[0] == d then 1 else 0) + Count(s[1..], d)
  }

  /** string.Split(char): the pieces between occurrences of d, empty pieces
      included. */
  function Split(s: string, d: char): (parts: seq<string>)
    ensures |parts| == Count(s, d) + 1
    ensures forall i :: 0 <= i < |parts| ==> d !in parts[i]
  {
    if s == [] then [[]]
    else
      var rest := Split(s[1..], d);
      if s[0] == d then [[]] + rest
      else [[s[0]] + rest[0]] + rest[1..]
  }

  /** string.Join(d, parts) */
  function Join(parts: seq<string>, d: char): string {
    if |parts| == 0 then []
    else if |parts| == 1 then parts[0]
    else parts[0] + [d] + Join(parts[1..], d)
  }

  /** Joining one more piece appends the delimiter and that piece. */
  lemma {:induction false} JoinSnoc(parts: seq<string>, p: string, d: char)
    requires |parts| >= 1
    ensures Join(parts + [p], d) == Join(parts, d) + [d] + p
  {
    if |parts| == 1 {
      assert parts + [p] == [parts[0], p];
      assert [parts[0], p][1..] == [p];
    } else {
      assert (parts + [p])[1..] == parts[1..] + [p];
      JoinSnoc(parts[1..], p, d);
    }
  }

  /** Joining the pieces of a split gives the original string back. */
  lemma {:induction false} JoinSplit(s: string, d: char)
    ensures Join(Split(s, d), d) == s
  {
    if s != [] {
      var rest := Split(s[1..], d);
      JoinSplit(s[1..], d);
      if s[0] == d {
        assert Split(s, d) == [[]] + rest;
        assert ([[]] + rest)[1..] == rest;
        assert [s[0]] + s[1..] == s;
      } else {
        var parts := [[s[0]] + rest[0]] + rest[1..];
        assert Split(s, d) == parts;
        if |rest| == 1 {
          assert rest == [rest[0]];
          assert Join(rest, d) == rest[0];
        } else {
          assert parts[1..] == rest[1..];
          assert Join(rest, d) == rest[0] + [d] + Join(rest[1..], d);
        }
        assert [s[0]] + s[1..] == s;
      }
    }
  }

  /** A piece without d in front of the rest of a string joins the first
      piece of the rest. */
  lemma {:induction false} SplitPrefix(a: string, b: string, d: char)
    requires d !in a
    ensures Split(a + b, d) == [a + Split(b, d)[0]] + Split(b, d)[1..]
  {
    var rest := Split(b, d);
    if a == [] {
      assert a + b == b;
      assert a + rest[0] == rest[0];
      assert rest == [rest[0]] + rest[1..];
    } else {
      assert (a + b)[0] == a[0];
      assert (a + b)[1..] == a[1..] + b;
      SplitPrefix(a[1..], b, d);
      assert [a[0]] + (a[1..] + Split(b, d)[0]) == a + Split(b, d)[0];
    }
  }

  /** Splitting what was joined gives back the pieces, as long as no piece
      contains the delimiter. */
  lemma {:induction false} SplitJoin(parts: seq<string>, d: char)
    requires |parts| >= 1
    requires forall i :: 0 <= i < |parts| ==> d !in parts[i]
    ensures Split(Join(parts, d), d) == parts
  {
    if |parts| == 1 {
      SplitPrefix(parts[0], [], d);
      assert parts[0] + [] == parts[0];
      assert parts == [parts[0]];
    } else {
      var rest := Join(parts[1..], d);
      SplitJoin(parts[1..], d);
      assert Split([d] + rest, d) == [[]] + Split(rest, d);
      assert parts[0] + [d] + rest == parts[0] + ([d] + rest);
      SplitPrefix(parts[0], [d] + rest, d);
      assert parts[0] + [] == parts[0];
      assert parts == [parts[0]] + parts[1..];
    }
  }

  /** char.IsWhiteSpace: the Unicode separators (categories Zs, Zl, Zp),
      U+0009 to U+000D, U+0085 and U+00A0. */
  predicate IsWhiteSpace(c: char) {
    || c == ' '
    || '\t' <= c <= '\r'
    || c == '\U{85}'
    || c == '\U{A0}'
    || c == '\U{1680}'
    || '\U{2000}' <= c <= '\U{200A}'
    || c == '\U{2028}'
    || c == '\U{2029}'
    || c == '\U{202F}'
    || c == '\U{205F}'
    || c == '\U{3000}'
  }

  /** Number of white-space characters at the start of s. */
  function LeadingWhiteSpace(s: string): (n: nat)
    ensures n <= |s|
    ensures forall i :: 0 <= i < n ==> IsWhiteSpace(s[i])
    ensures n < |s| ==> !IsWhiteSpace(s[n])
  {
    if s == [] || !IsWhiteSpace(s[0]) then 0 else 1 + LeadingWhiteSpace(s[1..])
  }

  /** Number of white-space characters at the end of s. */
  function TrailingWhiteSpace(s: string): (n: nat)
    ensures n <= |s|
    ensures forall i :: |s| - n <= i < |s| ==> IsWhiteSpace(s[i])
    ensures n < |s| ==> !IsWhiteSpace(s[|s| - n - 1])
  {
    if s == [] || !IsWhiteSpace(s[|s| - 1]) then 0 else 1 + TrailingWhiteSpace(s[..|s| - 1])
  }

  /** string.Trim(): the part of s between its leading and its trailing white
      space, which neither starts nor ends with white space. */
  function Trim(s: string): (r: string)
    ensures LeadingWhiteSpace(s) + |r| <= |s|
    ensures r == s[LeadingWhiteSpace(s)..LeadingWhiteSpace(s) + |r|]
    ensures forall i :: LeadingWhiteSpace(s) + |r| <= i < |s| ==> IsWhiteSpace(s[i])
    ensures r != [] ==> !IsWhiteSpace(r[0]) && !IsWhiteSpace(r[|r| - 1])
  {
    var t := s[LeadingWhiteSpace(s)..];
    t[..|t| - TrailingWhiteSpace(t)]
  }
}

=== FILE: Wrappers.dfy ===
/** Absent values, the exceptions the modelled code raises or catches, and
    the result of a call that either returns or throws. */
module Wrappers {

  /** A reference that may be null. */
  datatype Option<T> = None | Some(value: T)

  /** The exceptions that matter to the model. */
  datatype Exception =
    | ArgumentNull(paramName: string)
    | ArgumentOutOfRange(paramName: string)
      // anything a runtime call outside the model throws (BadImageFormatException, IOException, ...)
    | PlatformError(message: string)

  /** A call that either returns a value or throws. */
  datatype Result<T> = Ok(value: T) | Err(error: Exception)
}
